=== FILE: README.md ===
# Lagrange bot core, modelled in Dafny

This project models the sequential core of the lagrange-ts QQ bot library.
It does not model the network protocol. It covers four parts:

- **Bot session and events** (`packages/core/src/index.ts`). It covers:
  - the login flows: `qrCodeLogin`, `fastLogin`, `keyExchange`, `ntEasyLogin` and `botOnline`;
  - the bot's `uin` getter;
  - the friend-list fetch, which pages through the list and fills both sides of the uin↔uid identity map;
  - the handlers that turn raw wire events into typed friend and group events.

  Server replies are parameters. The bot's requests are recorded as a list of operations.
- **Persisted credentials** (`src/app/util/session/store.ts`). Byte buffers become hex text and back. The keystore and device records are serialised field by field.
- **Group message builder** (`src/app/message/outgoing/GroupMessageBuilder.ts`). It handles mentions, "mention everyone", and stamping a message with the group's client sequence number.
- **Outgoing segment registry** (`src/core/message/outgoing/segment-base.ts`). It maps a segment type to the builder registered for it.

Files and modules:

| file | module | contents |
|---|---|---|
| `wrappers.dfy` | `Wrappers` | `Option` and `Result` |
| `hex.dfy` | `Hex` | bytes; Node's `toString('hex')` and `Buffer.from(s, 'hex')` |
| `entries.dfy` | `Entries` | `new Map(entries)` / `Object.fromEntries`: insertion in list order, so the latest entry wins |
| `entities.dfy` | `Entities` | friends, group members, groups, keystore, device info |
| `store.dfy` | `SessionStore` | the credential codec |
| `identity.dfy` | `Identity` | the uin↔uid maps |
| `friend_fetch.dfy` | `FriendFetch` | the friend-list pagination loop |
| `login.dfy` | `Login` | the login state machines |
| `events.dfy` | `Events` | the event handlers |
| `group_message.dfy` | `GroupMessage` | the group message builder |
| `segments.dfy` | `Segments` | the segment registry |

JavaScript truthiness is modelled where the source relies on it:

- A `Buffer` object is truthy even when empty, so an empty buffer is written as `""`. But `""` is falsy, so it reads back as absent.
- `if (!uin)` treats a uid that resolves to 0 as unresolved.
- `if (operatorUid)` treats an empty operator uid as no operator.
- `while (data.nextUin)` stops on 0 as well as on an absent value.

Two behaviours are weaker than a reader might assume; the model follows the code:

- **QR login is not atomic.** The QR sign, string and URL, and any poll results, are written into the keystore before a later step fails, and they stay there (`Login.QrCodeLogin`).
- **The identity maps are not always inverse.** The friend fetch does two raw `.set` calls per friend. The two maps stay each other's inverse only while no uin or uid is claimed by two partners. `Identity.InsertKeepsInverse` and `Identity.InsertFriendsInverse` prove the positive case. `Identity.ConflictingInsertBreaksInverse` exhibits the failure.

## Model

| member | source | states |
|---|---|---|
| `Hex.Encode` | src/app/util/session/store.ts:50 | encoding gives two lower-case hex digits per byte; the text is empty exactly when the buffer is |
| `Hex.Nibble` | src/app/util/session/store.ts:56 | a character has a digit value exactly when it is a hex digit of either case |
| `Hex.Decode` | src/app/util/session/store.ts:56 | decoding yields at most one byte per two characters |
| `Hex.DecodeEncode` | src/app/util/session/store.ts:49-57 | decoding the hex text of any buffer, the empty one included, gives back that buffer |
| `Hex.EncodeDecode` | src/app/util/session/store.ts:49-57 | re-encoding decoded canonical (even-length, lower-case) hex text gives back the same text |
| `Hex.DecodeStopsAtInvalidPair` | src/app/util/session/store.ts:56 | Node's decoder stops at the first pair that is not two hex digits; nothing after it contributes |
| `Hex.DecodeDropsOddDigit` | src/app/util/session/store.ts:56 | a trailing odd character after an even-length prefix contributes nothing |
| `Hex.DecodeAllDigits` | src/app/util/session/store.ts:56 | even-length text of hex digits of either case decodes completely, each byte being its high digit times 16 plus its low digit |
| `Entries.FromEntries` | src/core/message/outgoing/segment-base.ts:27-29 | a map built from entries has exactly the entries' keys; each key holds the last entry with that key |
| `Entries.FromEntriesSource` | packages/core/src/index.ts:85-93 | every value in a map built from entries is some entry of the list, and is the last one with its key |
| `SessionStore.SerializeBuffer` | src/app/util/session/store.ts:49-51 | absent stays absent; n bytes become 2n characters that decode back to the buffer |
| `SessionStore.DeserializeBuffer` | src/app/util/session/store.ts:55-57 | both absent and empty text read as absent; any other text is hex-decoded |
| `SessionStore.DeserializeRequired` | src/app/util/session/store.ts:125-127 | a required buffer reads back as absent exactly when its text is empty; that case, where the source yields `undefined` behind a declared Buffer, is reported as a failure naming the field |
| `SessionStore.BufferRoundTrip` | src/app/util/session/store.ts:49-57 | a non-empty buffer survives writing and reading |
| `SessionStore.EmptyBufferLost` | src/app/util/session/store.ts:50-56 | an empty buffer is written as `""` and reads back as absent |
| `SessionStore.TextRoundTrip` | src/app/util/session/store.ts:49-57 | non-empty canonical hex text survives reading and writing back |
| `SessionStore.OptionalBufferRoundTrip` | src/app/util/session/store.ts:93-104 | an optional buffer field that is absent or non-empty round-trips |
| `SessionStore.SerializeDeviceInfo` | src/app/util/session/store.ts:59-67 | name, kernel and kernel version pass through; the guid and MAC address become hex of twice their length |
| `SessionStore.DeserializeDeviceInfo` | src/app/util/session/store.ts:69-77 | the guid or MAC reads back absent (reported as a failure) exactly when its text is empty; otherwise both buffers are hex-decoded and the text fields pass through |
| `SessionStore.DeviceInfoRoundTrip` | src/app/util/session/store.ts:59-77 | the device record round-trips when guid and MAC are non-empty; otherwise reading fails on the first empty one |
| `SessionStore.SerializeKeystore` | src/app/util/session/store.ts:79-113 | every non-buffer field passes through unchanged; a required session key is written as `""` exactly when it is empty |
| `SessionStore.DeserializeKeystore` | src/app/util/session/store.ts:115-149 | a required buffer reads back absent (reported as a failure) exactly when one of the five required buffers is empty text; otherwise every non-buffer field passes through, every required buffer is hex-decoded and every optional buffer is read as `deserializeBuffer` reads it |
| `SessionStore.KeystoreRoundTrip` | src/app/util/session/store.ts:79-149 | a keystore whose present buffers are all non-empty comes back unchanged |
| `SessionStore.EmptySessionKeyLost` | src/app/util/session/store.ts:89-91 | an empty d2Key, d2 or tgt makes the keystore unreadable, although the non-null assertion claims it is present |
| `SessionStore.EmptyTempPasswordLost` | src/app/util/session/store.ts:103 | an empty temporary password comes back absent and the rest of the keystore is unchanged |
| `Identity.ResolveUin` | packages/core/src/index.ts:142 | resolving a uid gives its recorded uin, and nothing exactly when it is unknown |
| `Identity.Resolves` | packages/core/src/index.ts:142-143 | the handlers' `if (!uin) return` test: a uid counts as resolved only when it is known and its uin is not 0 |
| `Identity.Insert` | packages/core/src/index.ts:81-82 | recording a pair makes each side map to the other and leaves every other uin and uid as it was |
| `Identity.InsertKeepsInverse` | packages/core/src/index.ts:80-83 | recording a pair that agrees with what is known keeps the two maps each other's inverse |
| `Identity.ConflictingInsertBreaksInverse` | packages/core/src/index.ts:80-83 | two accounts claiming one uid leave the maps no longer inverse |
| `Identity.InsertFriends` | packages/core/src/index.ts:80-83 | recording friends never removes a known uin or uid |
| `Identity.InsertFriendsAsEntries` | packages/core/src/index.ts:80-83 | recording friends in order equals laying the friend list, keyed by uin (and by uid) with the latest friend winning, over the old maps |
| `Identity.InsertFriendsLatestWins` | packages/core/src/index.ts:80-83 | after recording, the latest friend with a uin is found under that uin, and the latest with a uid resolves from that uid |
| `Identity.InsertFriendsKeepsOthers` | packages/core/src/index.ts:80-83 | a uid no friend mentions resolves as it did before |
| `Identity.InsertFriendsInverse` | packages/core/src/index.ts:80-83 | from empty maps, a friend list with no conflicting pairs yields maps that are each other's inverse |
| `FriendFetch.HasNext` | packages/core/src/index.ts:76 | the loop test `while (data.nextUin)`: another page is requested only for a present, non-zero cursor |
| `FriendFetch.Flatten` | packages/core/src/index.ts:75-78 | the concatenated friend list holds every friend of every page, and only those |
| `FriendFetch.FlattenPrefix` | packages/core/src/index.ts:76-78 | each further page only appends: the friends of the first k pages are a prefix of the friends of all pages |
| `FriendFetch.FetchFriends` | packages/core/src/index.ts:74-93 | pages are requested until the first one whose nextUin is 0 or absent, each follow-up with the previous page's nextUin; the friends are all pages concatenated in order; identity and cache are filled from them; a channel that ends while a page is still announced yields no result |
| `FriendFetch.FetchedFriendIndexed` | packages/core/src/index.ts:80-93 | the latest friend with a uin is the cache entry for that uin, and the identity map sends that uin to its uid |
| `Login.BotUin` | packages/core/src/index.ts:256-258 | the bot's uin is absent exactly while the keystore holds 0 |
| `Login.Includes` | packages/core/src/index.ts:374 | the substring test holds exactly when the pattern occurs somewhere in the text |
| `Login.GoOnline` | packages/core/src/index.ts:372-385 | going online succeeds exactly when the reply contains "register success"; success sets loggedIn and starts one heartbeat, failure changes nothing |
| `Login.ExchangeKeys` | packages/core/src/index.ts:340-344 | the key exchange stores the key and signature, and nothing else in the keystore or the bot changes |
| `Login.EasyLogin` | packages/core/src/index.ts:351-367 | a rejected easy login fails with its error code and changes nothing; an accepted one stores the five session fields, changes nothing else in the keystore, and goes online |
| `Login.FastLogin` | packages/core/src/index.ts:328-366 | going online comes first; only on failure follow key exchange and easy login; a second online attempt happens only after an accepted easy login; an accepted one stores its five session fields and sends exactly that second online request, while a rejected one ends the calls after the easy-login request; session keys are unchanged when easy login is rejected; once the first attempt fails, the exchanged GCM key and sign stay in the keystore |
| `Login.QrPollInterval` | packages/core/src/index.ts:263-269 | the poll interval is the requested one (5000 by default) raised to at least 2000 |
| `Login.EndsPolling` | packages/core/src/index.ts:283-293 | the poll callback clears its timer on a confirmed reply and on an expired or cancelled one, and on nothing else |
| `Login.FirstStop` | packages/core/src/index.ts:283-293 | the poll that ends polling is the first confirmed, expired or cancelled reply, if any |
| `Login.QrCodeLogin` | packages/core/src/index.ts:265-322 | polls stop at the first ending reply and no later reply is read; the QR sign, string and URL are stored whatever happens; expiry or cancellation fails before the login request with nothing from the polls stored; confirmation stores the tgtgtKey, the noPicSig and the account number, and the poll's tempPassword stays when the login is then rejected; expiry or cancellation ends the requests after the last query, a rejected login fails with its state, tag and message right after the login request and before any online request, and an accepted login stores the uid, session keys and account info and sends exactly one online request, failing with the registration reply when that is refused; the bot is online exactly when the code is confirmed, the login is accepted and registration succeeds |
| `Login.QrConfirmedOnThirdPoll` | packages/core/src/index.ts:279-301 | two pending polls then a confirmation give exactly three queries and then the login request |
| `Login.QrExpiredOnSecondPoll` | packages/core/src/index.ts:289-293 | an expired code on the second poll fails after two queries and reads no later reply |
| `Events.OnFriendPoke` | packages/core/src/index.ts:134-139 | the friend looked up is the target when the bot poked and the sender otherwise; the event is emitted exactly when that friend is cached, with the self flag |
| `Events.OnFriendRecall` | packages/core/src/index.ts:141-148 | a recall is emitted exactly when the sender's uid resolves to a cached friend |
| `Events.OnGroupAdminChange` | packages/core/src/index.ts:174-184 | an admin change is emitted exactly when the target is a member of a cached group |
| `Events.OnGroupMemberIncrease` | packages/core/src/index.ts:186-205 | a join is emitted exactly when the new member is a member and a given operator is one too; the operator is carried exactly when given |
| `Events.OnGroupMemberDecrease` | packages/core/src/index.ts:207-223 | with an operator, a kick is emitted exactly when the member resolves and the operator is a member; without one, a leave is emitted exactly when the member resolves, with no membership check |
| `Events.OnGroupMute` | packages/core/src/index.ts:225-241 | a mute event needs both uids to be members; duration 0 lifts the mute, any other duration mutes for that long |
| `Events.OnGroupMuteAll` | packages/core/src/index.ts:243-253 | a mute-all event is emitted exactly when the operator is a member |
| `Events.Demux` | packages/core/src/index.ts:129-253 | a friend request is always passed on; every other raw event yields at most one event of its own kind, on the group it names |
| `Events.GroupEventEmittedIffAttributable` | packages/core/src/index.ts:174-253 | a group event is emitted exactly when its group is cached, every uid it carries resolves, and every uid it needs as a member is one |
| `Events.MoreKnowledgeKeepsEvents` | packages/core/src/index.ts:134-253 | knowing more identities, friends, groups or members never withdraws or changes an event that was already deliverable |
| `Events.MuteAttribution` | packages/core/src/index.ts:225-241 | the muted member comes from the target uid and the operator from the operator uid, in the handler's argument order |
| `Events.HasOperator` | packages/core/src/index.ts:193 | the test `if (operatorUid)`: an absent or empty operator uid means the event has no operator |
| `Events.PokeWhileUinUnknown` | packages/core/src/index.ts:135-137 | with the bot's uin getter derived from a keystore holding 0, a poke is never the bot's own: the sender is looked up and the self flag is false |
| `Events.PokeFromSelf` | packages/core/src/index.ts:135-137 | once the keystore holds the bot's uin, a poke it sent is reported on the poked friend with the self flag set |
| `Events.MemberDecreaseScenarios` | packages/core/src/index.ts:207-223 | a decrease on an unknown group is dropped; on a cached group it is a leave without an operator, and a kick by an operator who is a member |
| `GroupMessage.DisplayName` | src/app/message/outgoing/GroupMessageBuilder.ts:19 | the name shown is the group card unless it is unset or empty, and otherwise the nickname |
| `GroupMessage.Mention` | src/app/message/outgoing/GroupMessageBuilder.ts:14-21 | a mention appends exactly one segment with the member's uin and uid and "@" plus the display name, and keeps earlier segments |
| `GroupMessage.MentionAll` | src/app/message/outgoing/GroupMessageBuilder.ts:23-30 | mentioning everyone appends uin 0, an empty uid and "@全体成员" |
| `GroupMessage.Build` | src/app/message/outgoing/GroupMessageBuilder.ts:50-55 | the message is a group message on the group's uin with the pushed segments and the group's current sequence number; the group's counter rises by exactly one and nothing else about the group changes |
| `GroupMessage.SuccessiveBuildsConsecutive` | src/app/message/outgoing/GroupMessageBuilder.ts:54 | two builds on one group get consecutive, distinct sequence numbers |
| `GroupMessage.BuildAll` | src/app/message/outgoing/GroupMessageBuilder.ts:50-55 | n builds on one group number their messages from the group's counter upwards and leave the counter n higher |
| `GroupMessage.BuildAllDistinct` | src/app/message/outgoing/GroupMessageBuilder.ts:54 | no two messages built on one group share a sequence number |
| `GroupMessage.ApplyAllInPushOrder` | src/app/message/outgoing/GroupMessageBuilder.ts:14-30 | after any series of mentions the segments are the old ones followed by one segment per call, in call order |
| `Segments.DefineOutgoing` | src/core/message/outgoing/segment-base.ts:12-17 | a defined builder carries the given type tag and build function |
| `Segments.NewCollection` | src/core/message/outgoing/segment-base.ts:26-29 | the collection knows exactly the builders' types; when several share a type, the latest in the list is the one stored |
| `Segments.Build` | src/core/message/outgoing/segment-base.ts:32-37 | a segment of an unregistered type yields nothing; otherwise the result is exactly the registered builder's output |
| `Segments.DispatchToLastRegistered` | src/core/message/outgoing/segment-base.ts:27-35 | a segment goes to the last builder of its type in the registration list |
| `Segments.DispatchUnknownType` | src/core/message/outgoing/segment-base.ts:32-37 | a segment whose type no builder has yields nothing |
| `Segments.DefinedBuilderHandlesItsType` | src/core/message/outgoing/segment-base.ts:12-17 | a builder made by `defineOutgoing` and registered last handles every segment of its type with the given build function |
| `Segments.DefaultCollection` | src/core/message/outgoing/segment-base.ts:40-43 | `outgoingSegments` is the collection of the text builder followed by the mention builder, and nothing else |
| `Segments.DefaultCollectionDispatch` | src/core/message/outgoing/segment-base.ts:40-43 | the default collection knows exactly "text" and "mention" and sends each to its builder |

## Left out

- **Transport.** `ops.call`, `connectToMsfServer`, `fetchHighwayUrl`, `Bot.create`, the highway upload and the heartbeat request are not modelled. Each reply the bot would receive is a parameter. A key exchange whose channel throws is not modelled: `Login.ExchangeKeys` always receives a reply.
- **Timers and concurrency.** The `setInterval` QR poll is a list of poll replies in arrival order. Overlapping asynchronous poll callbacks are not modelled. The 4.5-minute heartbeat timer is recorded only as a counter of timers started.
- **Logging.** The `[log]` emitters and the `onDebug`, `onInfo` and `onWarning` listeners are side effects only.
- **Collaborators whose code is not part of this model.** Each is an abstract finite map:
  - `BotCacheService`, whose single-flight loading and forced refresh are not modelled;
  - `BotIdentityService.resolveUin`;
  - `group.getMember`;
  - `getFriend` and `getGroup`.

  `getCorrectUin` is a parameter of `Login.QrCodeLogin`.
- **Group-list fetch.** The group cache's fetch function (packages/core/src/index.ts:98-114) is a plain projection of the server's list and is not modelled.
- **Join requests.** The `groupJoinRequest` and `groupInvitedJoinRequest` handlers depend entirely on `BotGroupJoinRequest.create` and `BotGroupInvitedJoinRequest.create`, whose code is not part of this model.
- **Message push.** The `messagePush` handler forwards to `MessageDispatcher`, whose code is not part of this model.
- **`GroupMessageBuilder.image`.** It needs image metadata parsing and a network upload.
- **Segment builders.** The text and mention builders' own files are not part of this model. `Segments.DefaultCollectionDispatch` takes their type tags as preconditions.
- **Prototype keys.** `Object.fromEntries` builds a plain object, so a segment type such as `"toString"` would find an inherited property. The registry is modelled as a map that holds only the registered types.
- **Other files.** The TLV schema declarations and protobuf field tables only declare fields for codecs whose code is not part of this model. The demo scripts only log or read files.
- **Numbers.** Uins, sequence numbers and durations are unbounded integers. JavaScript's 53-bit number precision for `clientSequence++` is not modelled.
- **Dates.** `sessionDate` is a `Date` in the source and an opaque integer here; it is copied unchanged both ways.
- **QR states.** Poll states are named. Their numeric wire codes are not modelled.
- `Hex.Decode`: its contract states only a length bound; what it decodes is stated by `Hex.DecodeEncode`, `Hex.EncodeDecode`, `Hex.DecodeAllDigits`, `Hex.DecodeStopsAtInvalidPair` and `Hex.DecodeDropsOddDigit`.
- `SessionStore.DeserializeKeystore`: where a required buffer's text is empty the source does not fail. It returns the whole record, with `undefined` in the field its types call a Buffer and every other field intact. The model reports that case as `EmptyRequiredBuffer` instead, and so do `SessionStore.DeserializeRequired` and `SessionStore.DeserializeDeviceInfo`. The record the source would build around the hole is not modelled.
- `GroupMessage.Build`: the source's message shares the builder's own segment array, so a segment pushed after `build()` also appears in the built message. The model copies the segments at build time and does not model that aliasing.
- `Login.QrPollInterval`: the source's interval is a JavaScript number. `Math.max(NaN, 2000)` is NaN, so the 2000 ms floor holds only for real numbers. The model takes an integer.
- **Friends without a uid.** The source reads `friend.uid!`, so a friend record without a uid would put `undefined` into both identity maps and into the cache. `Friend.uid` is a plain string here, and the model does not cover that case.
- `Identity.InsertFriends`: its own contract states only that keys are never removed; the full content is stated by `Identity.InsertFriendsAsEntries`.

=== FILE: entities.dfy ===
/** The records the bot keeps: roster entities and the credential store. The
    shapes follow the fields the core reads and writes; the declaring modules
    (`@/common`, `@/entity`) are not part of this model. */
module Entities {
  import opened Wrappers
  import opened Hex

  /** A friend as fetched from the server and kept in the friend cache. */
  datatype Friend = Friend(
    uin: int,
    uid: string,
    nickname: string,
    remark: string,
    signature: string,
    qid: string,
    category: int)

  /** A group member; `card` is the group nickname and may be unset. */
  datatype Member = Member(uin: int, uid: string, card: Option<string>, nickname: string)

  /** A cached group with its member lookup and the counter that stamps
      outgoing messages. */
  datatype Group = Group(uin: int, name: string, members: map<int, Member>, clientSequence: int)

  /** Long-lived device and account secrets. */
  datatype Stub = Stub(randomKey: Bytes, tgtgtKey: Bytes)

  datatype Captcha = Captcha(ticket: string, randStr: string, aid: string)

  /** Short-lived session keys, tickets and transient login artefacts.
      `sessionDate` is kept as a timestamp. */
  datatype Session = Session(
    d2Key: Bytes,
    d2: Bytes,
    tgt: Bytes,
    sessionDate: int,
    qrSign: Option<Bytes>,
    qrString: Option<string>,
    qrUrl: Option<string>,
    exchangeKey: Option<Bytes>,
    keySign: Option<Bytes>,
    unusualSign: Option<Bytes>,
    unusualCookies: Option<string>,
    captchaUrl: Option<string>,
    newDeviceVerifyUrl: Option<string>,
    captcha: Option<Captcha>,
    tempPassword: Option<Bytes>,
    noPicSig: Option<Bytes>,
    sequence: int)

  datatype AccountInfo = AccountInfo(age: int, gender: int, name: string)

  /** The credential store; `uin == 0` means the account number is not yet known. */
  datatype Keystore = Keystore(
    uin: int,
    uid: Option<string>,
    passwordMd5: string,
    stub: Stub,
    session: Session,
    info: AccountInfo)

  datatype DeviceInfo = DeviceInfo(
    guid: Bytes,
    macAddress: Bytes,
    deviceName: string,
    systemKernel: string,
    kernelVersion: string)
}

=== FILE: entries.dfy ===
/** Building a keyed map from a list of entries, the way `new Map(entries)` and
    `Object.fromEntries(entries)` do: entries are inserted in list order, so for
    a key that occurs several times the latest entry wins. */
module Entries {

  /** No entry after position `i` has the same key as entry `i`. */
  ghost predicate LastWithKey<K, V>(xs: seq<V>, key: V -> K, i: int)
    requires 0 <= i < |xs|
  {
    forall j | i < j < |xs| :: key(xs[j]) != key(xs[i])
  }

  function FromEntries<K, V>(xs: seq<V>, key: V -> K): (m: map<K, V>)
    ensures m.Keys == set i | 0 <= i < |xs| :: key(xs[i])
    ensures forall i | 0 <= i < |xs| && LastWithKey(xs, key, i) :: m[key(xs[i])] == xs[i]
  {
    if xs == [] then map[]
    else
      var m := FromEntries(xs[..|xs| - 1], key);
      KeysOfSnoc(xs, key);
      LastWithKeyOfPrefix(xs, key);
      m[key(xs[|xs| - 1]) := xs[|xs| - 1]]
  }

  /** The keys of a list of entries. */
  ghost function KeySet<K, V>(xs: seq<V>, key: V -> K): set<K> {
    set i | 0 <= i < |xs| :: key(xs[i])
  }

  /** The keys of a list are those of all but its last entry, plus the last
      entry's key. */
  lemma KeysOfSnoc<K, V>(xs: seq<V>, key: V -> K)
    requires xs != []
    ensures KeySet(xs, key) == KeySet(xs[..|xs| - 1], key) + {key(xs[|xs| - 1])}
  {
    var init := xs[..|xs| - 1];
    forall k | k in KeySet(init, key)
      ensures k in KeySet(xs, key)
    {
      var i :| 0 <= i < |init| && key(init[i]) == k;
      assert key(xs[i]) == k;
    }
    forall k | k in KeySet(xs, key)
      ensures k in KeySet(init, key) + {key(xs[|xs| - 1])}
    {
      var i :| 0 <= i < |xs| && key(xs[i]) == k;
      if i < |init| {
        assert key(init[i]) == k;
      }
    }
  }

  /** An entry that is the last with its key in the whole list is so in the
      list without its final entry, and differs from that entry in key. */
  lemma LastWithKeyOfPrefix<K, V>(xs: seq<V>, key: V -> K)
    requires xs != []
    ensures forall i | 0 <= i < |xs| - 1 && LastWithKey(xs, key, i) ::
      xs[..|xs| - 1][i] == xs[i] && LastWithKey(xs[..|xs| - 1], key, i) && key(xs[i]) != key(xs[|xs| - 1])
  {
  }

  /** The last entry whose key equals that of entry `i`. */
  ghost function LastIndexWith<K, V>(xs: seq<V>, key: V -> K, i: int): (k: int)
    requires 0 <= i < |xs|
    ensures i <= k < |xs| && key(xs[k]) == key(xs[i]) && LastWithKey(xs, key, k)
    decreases |xs| - i
  {
    if forall j | i < j < |xs| :: key(xs[j]) != key(xs[i]) then i
    else
      var j :| i < j < |xs| && key(xs[j]) == key(xs[i]);
      LastIndexWith(xs, key, j)
  }

  /** The entry stored under a key is the last entry of the list with that key. */
  lemma FromEntriesSource<K, V>(xs: seq<V>, key: V -> K, k: K)
    requires k in FromEntries(xs, key)
    ensures exists i | 0 <= i < |xs| :: xs[i] == FromEntries(xs, key)[k] && key(xs[i]) == k && LastWithKey(xs, key, i)
  {
    var i :| 0 <= i < |xs| && key(xs[i]) == k;
    var j := LastIndexWith(xs, key, i);
  }

  /** Applies `f` to every value of `m`. */
  function Project<K, V, W>(m: map<K, V>, f: V -> W): (r: map<K, W>)
    ensures r.Keys == m.Keys
    ensures forall k | k in m :: r[k] == f(m[k])
  {
    map k | k in m :: f(m[k])
  }

  lemma ProjectUpdate<K, V, W>(m: map<K, V>, k: K, v: V, f: V -> W)
    ensures Project(m[k := v], f) == Project(m, f)[k := f(v)]
  {
  }

  lemma UnionUpdate<K, V>(a: map<K, V>, b: map<K, V>, k: K, v: V)
    ensures (a + b)[k := v] == a + b[k := v]
  {
  }
}

=== FILE: events.dfy ===
/** The bot's handlers for raw wire events (packages/core/src/index.ts:129-253)
    as pure decision functions. A handler sees the raw event and a snapshot
    of what the bot can look up: the keystore's uin, the identity map
    (`resolveUin`), the friend and group caches (`getFriend`, `getGroup`)
    and each group's members (`group.getMember`). It emits at most one typed
    domain event; an event it cannot attribute is dropped. */
module Events {
  import opened Wrappers
  import opened Entities
  import opened Identity
  import Login

  /** `botUin` is the value of the bot's `uin` getter (`Login.BotUin` of the
      keystore): absent while the account number is unknown. */
  datatype Env = Env(botUin: Option<int>, identity: IdentityMap, friends: map<int, Friend>, groups: map<int, Group>)

  datatype RawEvent =
    | FriendRequest(fromUin: int, fromUid: string, message: string, via: string)
    | FriendPoke(fromUin: int, toUin: int, actionStr: string, actionImgUrl: string, suffix: string)
    | FriendRecall(fromUid: string, clientSequence: int, tip: string)
    | GroupAdminChange(groupUin: int, targetUid: string, isPromote: bool)
    | GroupMemberIncrease(groupUin: int, memberUid: string, operator: Option<string>)
    | GroupMemberDecrease(groupUin: int, memberUid: string, operator: Option<string>)
    | GroupMute(groupUin: int, operatorUid: string, targetUid: string, duration: int)
    | GroupMuteAll(groupUin: int, operatorUid: string, isSet: bool)

  /** The typed events, each naming the friend or group it is emitted on. */
  datatype DomainEvent =
    | FriendRequestReceived(fromUin: int, fromUid: string, message: string, via: string)
    | Poke(friend: Friend, isSelf: bool, actionStr: string, actionImgUrl: string, suffix: string)
    | Recall(friend: Friend, clientSequence: int, tip: string)
    | AdminChange(groupUin: int, member: Member, isPromote: bool)
    | MemberIncrease(groupUin: int, member: Member, operatorIfAny: Option<Member>)
    | MemberKick(groupUin: int, uin: int, operator: Member)
    | MemberLeave(groupUin: int, uin: int)
    | Mute(groupUin: int, member: Member, operator: Member, duration: int)
    | Unmute(groupUin: int, member: Member, operator: Member)
    | MuteAll(groupUin: int, operator: Member, isSet: bool)

  /** `if (operatorUid)`: an absent or empty operator uid means "no operator". */
  predicate HasOperator(operatorUid: Option<string>) {
    operatorUid.Some? && operatorUid.value != ""
  }

  function UinFor(env: Env, uid: string): int
    requires Resolves(env.identity, uid)
  {
    env.identity.uid2uin[uid]
  }

  /** The uid resolves to a uin that `group.getMember` knows in this group. */
  predicate IsMember(env: Env, groupUin: int, uid: string) {
    && groupUin in env.groups
    && Resolves(env.identity, uid)
    && UinFor(env, uid) in env.groups[groupUin].members
  }

  function MemberFor(env: Env, groupUin: int, uid: string): Member
    requires IsMember(env, groupUin, uid)
  {
    env.groups[groupUin].members[UinFor(env, uid)]
  }

  // --------------------------------------------------------------- friends

  /** `friendPoke`: look up the other party (the target when the bot poked,
      the sender otherwise). The self test compares with the `uin` getter, so
      it never holds while that getter is absent. */
  function OnFriendPoke(env: Env, fromUin: int, toUin: int, actionStr: string, actionImgUrl: string, suffix: string): (r: Option<DomainEvent>)
    ensures
      var isSelf := env.botUin.Some? && env.botUin.value == fromUin;
      var other := if isSelf then toUin else fromUin;
      && (r.Some? <==> other in env.friends)
      && (r.Some? ==> r.value.Poke? && r.value.friend == env.friends[other] && r.value.isSelf == isSelf)
  {
    var isSelf := env.botUin == Some(fromUin);
    var other := if isSelf then toUin else fromUin;
    if other in env.friends then Some(Poke(env.friends[other], isSelf, actionStr, actionImgUrl, suffix)) else None
  }

  /** `friendRecall`: the sender's uid must resolve and name a friend. */
  function OnFriendRecall(env: Env, fromUid: string, clientSequence: int, tip: string): (r: Option<DomainEvent>)
    ensures r.Some? <==> Resolves(env.identity, fromUid) && UinFor(env, fromUid) in env.friends
    ensures r.Some? ==> r.value == Recall(env.friends[UinFor(env, fromUid)], clientSequence, tip)
  {
    var uin := ResolveUin(env.identity, fromUid);
    if uin.None? || uin.value == 0 then None
    else if uin.value in env.friends then Some(Recall(env.friends[uin.value], clientSequence, tip))
    else None
  }

  // ---------------------------------------------------------------- groups

  /** `groupAdminChange`: the target must be a member of a cached group. */
  function OnGroupAdminChange(env: Env, groupUin: int, targetUid: string, isPromote: bool): (r: Option<DomainEvent>)
    ensures r.Some? <==> IsMember(env, groupUin, targetUid)
    ensures r.Some? ==> r.value == AdminChange(groupUin, MemberFor(env, groupUin, targetUid), isPromote)
  {
    if groupUin !in env.groups then None
    else
      var uin := ResolveUin(env.identity, targetUid);
      if uin.None? || uin.value == 0 then None
      else if uin.value in env.groups[groupUin].members then
        Some(AdminChange(groupUin, env.groups[groupUin].members[uin.value], isPromote))
      else None
  }

  /** `groupMemberIncrease`: the new member must be a member; an operator, when
      given, must be one too. */
  function OnGroupMemberIncrease(env: Env, groupUin: int, memberUid: string, operatorUid: Option<string>): (r: Option<DomainEvent>)
    ensures r.Some? <==>
      IsMember(env, groupUin, memberUid) && (HasOperator(operatorUid) ==> IsMember(env, groupUin, operatorUid.value))
    ensures r.Some? ==> r.value.MemberIncrease? && r.value.member == MemberFor(env, groupUin, memberUid)
    ensures r.Some? ==> (r.value.operatorIfAny.Some? <==> HasOperator(operatorUid))
    ensures r.Some? && HasOperator(operatorUid) ==> r.value.operatorIfAny.value == MemberFor(env, groupUin, operatorUid.value)
  {
    if groupUin !in env.groups then None
    else
      var uin := ResolveUin(env.identity, memberUid);
      if uin.None? || uin.value == 0 then None
      else if uin.value !in env.groups[groupUin].members then None
      else
        var member := env.groups[groupUin].members[uin.value];
        if HasOperator(operatorUid) then
          var operatorUin := ResolveUin(env.identity, operatorUid.value);
          if operatorUin.None? || operatorUin.value == 0 then None
          else if operatorUin.value in env.groups[groupUin].members then
            Some(MemberIncrease(groupUin, member, Some(env.groups[groupUin].members[operatorUin.value])))
          else None
        else Some(MemberIncrease(groupUin, member, None))
  }

  /** `groupMemberDecrease`: the departed member's uid only has to resolve (it
      is no longer a member). With an operator the event is a kick and the
      operator must be a member; without one it is a voluntary leave. */
  function OnGroupMemberDecrease(env: Env, groupUin: int, memberUid: string, operatorUid: Option<string>): (r: Option<DomainEvent>)
    ensures r.Some? ==> groupUin in env.groups && Resolves(env.identity, memberUid)
    ensures HasOperator(operatorUid) ==>
      (r.Some? <==> groupUin in env.groups && Resolves(env.identity, memberUid) && IsMember(env, groupUin, operatorUid.value))
    ensures HasOperator(operatorUid) && r.Some? ==>
      r.value == MemberKick(groupUin, UinFor(env, memberUid), MemberFor(env, groupUin, operatorUid.value))
    ensures !HasOperator(operatorUid) ==>
      (r.Some? <==> groupUin in env.groups && Resolves(env.identity, memberUid))
    ensures !HasOperator(operatorUid) && r.Some? ==> r.value == MemberLeave(groupUin, UinFor(env, memberUid))
  {
    if groupUin !in env.groups then None
    else
      var uin := ResolveUin(env.identity, memberUid);
      if uin.None? || uin.value == 0 then None
      else if HasOperator(operatorUid) then
        var operatorUin := ResolveUin(env.identity, operatorUid.value);
        if operatorUin.None? || operatorUin.value == 0 then None
        else if operatorUin.value in env.groups[groupUin].members then
          Some(MemberKick(groupUin, uin.value, env.groups[groupUin].members[operatorUin.value]))
        else None
      else Some(MemberLeave(groupUin, uin.value))
  }

  /** `groupMute`: both target and operator must be members; a zero duration
      lifts the mute. */
  function OnGroupMute(env: Env, groupUin: int, operatorUid: string, targetUid: string, duration: int): (r: Option<DomainEvent>)
    ensures r.Some? <==> IsMember(env, groupUin, targetUid) && IsMember(env, groupUin, operatorUid)
    ensures r.Some? && duration == 0 ==>
      r.value == Unmute(groupUin, MemberFor(env, groupUin, targetUid), MemberFor(env, groupUin, operatorUid))
    ensures r.Some? && duration != 0 ==>
      r.value == Mute(groupUin, MemberFor(env, groupUin, targetUid), MemberFor(env, groupUin, operatorUid), duration)
  {
    if groupUin !in env.groups then None
    else
      var uin := ResolveUin(env.identity, targetUid);
      var operatorUin := ResolveUin(env.identity, operatorUid);
      if uin.None? || uin.value == 0 || operatorUin.None? || operatorUin.value == 0 then None
      else
        var members := env.groups[groupUin].members;
        if uin.value in members && operatorUin.value in members then
          if duration == 0 then Some(Unmute(groupUin, members[uin.value], members[operatorUin.value]))
          else Some(Mute(groupUin, members[uin.value], members[operatorUin.value], duration))
        else None
  }

  /** `groupMuteAll`: the operator must be a member. */
  function OnGroupMuteAll(env: Env, groupUin: int, operatorUid: string, isSet: bool): (r: Option<DomainEvent>)
    ensures r.Some? <==> IsMember(env, groupUin, operatorUid)
    ensures r.Some? ==> r.value == MuteAll(groupUin, MemberFor(env, groupUin, operatorUid), isSet)
  {
    if groupUin !in env.groups then None
    else
      var operatorUin := ResolveUin(env.identity, operatorUid);
      if operatorUin.None? || operatorUin.value == 0 then None
      else if operatorUin.value in env.groups[groupUin].members then
        Some(MuteAll(groupUin, env.groups[groupUin].members[operatorUin.value], isSet))
      else None
  }

  // -------------------------------------------------------------- dispatch

  /** The kind of domain event a raw event may become; a group event stays on
      the group the wire named. */
  predicate Answers(e: RawEvent, ev: DomainEvent) {
    match e
    case FriendRequest(_, _, _, _) => ev.FriendRequestReceived?
    case FriendPoke(_, _, _, _, _) => ev.Poke?
    case FriendRecall(_, _, _) => ev.Recall?
    case GroupAdminChange(g, _, _) => ev.AdminChange? && ev.groupUin == g
    case GroupMemberIncrease(g, _, _) => ev.MemberIncrease? && ev.groupUin == g
    case GroupMemberDecrease(g, _, _) => (ev.MemberKick? || ev.MemberLeave?) && ev.groupUin == g
    case GroupMute(g, _, _, _) => (ev.Mute? || ev.Unmute?) && ev.groupUin == g
    case GroupMuteAll(g, _, _) => ev.MuteAll? && ev.groupUin == g
  }

  /** Routes a raw event to its handler. A friend request is always passed on;
      every other event yields at most one event of its own kind. */
  function Demux(env: Env, e: RawEvent): (r: Option<DomainEvent>)
    ensures e.FriendRequest? ==> r == Some(FriendRequestReceived(e.fromUin, e.fromUid, e.message, e.via))
    ensures r.Some? ==> Answers(e, r.value)
  {
    match e
    case FriendRequest(fromUin, fromUid, message, via) => Some(FriendRequestReceived(fromUin, fromUid, message, via))
    case FriendPoke(fromUin, toUin, a, u, s) => OnFriendPoke(env, fromUin, toUin, a, u, s)
    case FriendRecall(fromUid, clientSequence, tip) => OnFriendRecall(env, fromUid, clientSequence, tip)
    case GroupAdminChange(g, target, isPromote) => OnGroupAdminChange(env, g, target, isPromote)
    case GroupMemberIncrease(g, member, operator) => OnGroupMemberIncrease(env, g, member, operator)
    case GroupMemberDecrease(g, member, operator) => OnGroupMemberDecrease(env, g, member, operator)
    case GroupMute(g, operator, target, duration) => OnGroupMute(env, g, operator, target, duration)
    case GroupMuteAll(g, operator, isSet) => OnGroupMuteAll(env, g, operator, isSet)
  }

  /** What a group event needs before it can be attributed: its group must be
      cached, every uid in `resolve` must resolve, and every uid in `members`
      must resolve to a member of the group. */
  datatype Requirement = Requirement(group: int, resolve: seq<string>, members: seq<string>)

  function OperatorUids(operatorUid: Option<string>): seq<string> {
    if HasOperator(operatorUid) then [operatorUid.value] else []
  }

  /** The identifiers each group event depends on, read off the event alone. */
  function Needs(e: RawEvent): Option<Requirement> {
    match e
    case GroupAdminChange(g, target, _) => Some(Requirement(g, [target], [target]))
    case GroupMemberIncrease(g, member, operator) =>
      Some(Requirement(g, [member] + OperatorUids(operator), [member] + OperatorUids(operator)))
    case GroupMemberDecrease(g, member, operator) =>
      Some(Requirement(g, [member] + OperatorUids(operator), OperatorUids(operator)))
    case GroupMute(g, operator, target, _) => Some(Requirement(g, [target, operator], [target, operator]))
    case GroupMuteAll(g, operator, _) => Some(Requirement(g, [operator], [operator]))
    case _ => None
  }

  ghost predicate Satisfied(env: Env, req: Requirement) {
    && req.group in env.groups
    && (forall i | 0 <= i < |req.resolve| :: Resolves(env.identity, req.resolve[i]))
    && (forall i | 0 <= i < |req.members| :: IsMember(env, req.group, req.members[i]))
  }

  /** A group event is emitted exactly when everything it depends on is known;
      otherwise it is silently dropped. */
  lemma GroupEventEmittedIffAttributable(env: Env, e: RawEvent)
    requires Needs(e).Some?
    ensures Demux(env, e).Some? <==> Satisfied(env, Needs(e).value)
  {
    var req := Needs(e).value;
    match e
    case GroupAdminChange(g, target, _) =>
      SatisfiedOne(env, g, target, target);
    case GroupMemberIncrease(g, member, operator) =>
      if HasOperator(operator) {
        assert req == Requirement(g, [member, operator.value], [member, operator.value]);
        SatisfiedTwo(env, g, member, operator.value, [member, operator.value]);
      } else {
        assert req == Requirement(g, [member], [member]);
        SatisfiedOne(env, g, member, member);
      }
    case GroupMemberDecrease(g, member, operator) =>
      if HasOperator(operator) {
        assert req == Requirement(g, [member, operator.value], [operator.value]);
        SatisfiedTwo(env, g, member, operator.value, [operator.value]);
      } else {
        assert req == Requirement(g, [member], []);
        assert req.resolve[0] == member;
      }
    case GroupMute(g, operator, target, _) =>
      SatisfiedTwo(env, g, target, operator, [target, operator]);
    case GroupMuteAll(g, operator, _) =>
      SatisfiedOne(env, g, operator, operator);
  }

  lemma SatisfiedOne(env: Env, g: int, a: string, m: string)
    ensures Satisfied(env, Requirement(g, [a], [m])) <==>
      g in env.groups && Resolves(env.identity, a) && IsMember(env, g, m)
  {
    var req := Requirement(g, [a], [m]);
    assert req.resolve[0] == a && req.members[0] == m;
  }

  lemma SatisfiedTwo(env: Env, g: int, a: string, b: string, ms: seq<string>)
    requires ms == [a, b] || ms == [b]
    ensures Satisfied(env, Requirement(g, [a, b], ms)) <==>
      g in env.groups && Resolves(env.identity, a) && Resolves(env.identity, b) &&
      (ms == [a, b] ==> IsMember(env, g, a)) && IsMember(env, g, b)
  {
    var req := Requirement(g, [a, b], ms);
    assert req.resolve[0] == a && req.resolve[1] == b;
    if ms == [a, b] {
      assert req.members[0] == a && req.members[1] == b;
    } else {
      assert req.members[0] == b;
    }
  }

  /** `env2` knows at least what `env1` knows: same bot, and every identity,
      friend, cached group and group member of `env1` is still there. */
  ghost predicate Extends(env1: Env, env2: Env) {
    && env1.botUin == env2.botUin
    && (forall d | d in env1.identity.uid2uin :: d in env2.identity.uid2uin && env2.identity.uid2uin[d] == env1.identity.uid2uin[d])
    && (forall u | u in env1.friends :: u in env2.friends && env2.friends[u] == env1.friends[u])
    && (forall g | g in env1.groups :: g in env2.groups &&
          forall u | u in env1.groups[g].members ::
            u in env2.groups[g].members && env2.groups[g].members[u] == env1.groups[g].members[u])
  }

  /** Learning more never withdraws or changes an event already deliverable:
      absence, not staleness, is what drops an event. */
  lemma MoreKnowledgeKeepsEvents(env1: Env, env2: Env, e: RawEvent)
    requires Extends(env1, env2)
    requires Demux(env1, e).Some?
    ensures Demux(env2, e) == Demux(env1, e)
  {
    match e
    case FriendRequest(_, _, _, _) =>
    case FriendPoke(_, _, _, _, _) =>
    case FriendRecall(_, _, _) =>
    case GroupAdminChange(_, _, _) =>
    case GroupMemberIncrease(_, _, _) =>
    case GroupMemberDecrease(_, _, _) =>
    case GroupMute(_, _, _, _) =>
    case GroupMuteAll(_, _, _) =>
  }

  /** A cached group whose member lookup returns members under their own uin. */
  ghost predicate MembersKeyedByUin(env: Env) {
    forall g, u | g in env.groups && u in env.groups[g].members :: env.groups[g].members[u].uin == u
  }

  /** A mute event names the members the wire uids resolve to, in the order
      the handler reads them: operator uid first, then target uid. */
  lemma MuteAttribution(env: Env, g: int, operatorUid: string, targetUid: string, duration: int)
    requires MembersKeyedByUin(env)
    requires Demux(env, GroupMute(g, operatorUid, targetUid, duration)).Some?
    ensures var ev := Demux(env, GroupMute(g, operatorUid, targetUid, duration)).value;
      && (ev.Mute? || ev.Unmute?)
      && ev.member.uin == env.identity.uid2uin[targetUid]
      && ev.operator.uin == env.identity.uid2uin[operatorUid]
      && (ev.Mute? <==> duration != 0)
  {
  }

  /** A member-decrease event on an unknown group is dropped; on a cached group
      with a resolvable member it is a leave without an operator and a kick
      with a resolvable operator who is a member. */
  lemma MemberDecreaseScenarios(env: Env, g: int, memberUid: string, operatorUid: string)
    requires Resolves(env.identity, memberUid) && operatorUid != ""
    ensures g !in env.groups ==> Demux(env, GroupMemberDecrease(g, memberUid, None)) == None
    ensures g in env.groups ==>
      Demux(env, GroupMemberDecrease(g, memberUid, None)) == Some(MemberLeave(g, env.identity.uid2uin[memberUid]))
    ensures IsMember(env, g, operatorUid) ==>
      Demux(env, GroupMemberDecrease(g, memberUid, Some(operatorUid))).value.MemberKick?
  {
  }

  /** While the keystore still holds uin 0 the bot's `uin` getter is absent,
      so no poke counts as the bot's own: the sender is always the friend
      looked up, and the self flag is false. */
  lemma PokeWhileUinUnknown(k: Keystore, ids: IdentityMap, friends: map<int, Friend>, groups: map<int, Group>,
                            fromUin: int, toUin: int, actionStr: string, actionImgUrl: string, suffix: string)
    requires k.uin == 0
    ensures var r := Demux(Env(Login.BotUin(k), ids, friends, groups), FriendPoke(fromUin, toUin, actionStr, actionImgUrl, suffix));
      && (r.Some? <==> fromUin in friends)
      && (r.Some? ==> r.value == Poke(friends[fromUin], false, actionStr, actionImgUrl, suffix))
  {
  }

  /** Once the uin is known, a poke sent by the bot itself is reported on the
      friend it poked, with the self flag set. */
  lemma PokeFromSelf(k: Keystore, ids: IdentityMap, friends: map<int, Friend>, groups: map<int, Group>,
                     toUin: int, actionStr: string, actionImgUrl: string, suffix: string)
    requires k.uin != 0 && toUin in friends
    ensures Demux(Env(Login.BotUin(k), ids, friends, groups), FriendPoke(k.uin, toUin, actionStr, actionImgUrl, suffix))
         == Some(Poke(friends[toUin], true, actionStr, actionImgUrl, suffix))
  {
  }
}

=== FILE: friend_fetch.dfy ===
/** The friend cache's fetch function (packages/core/src/index.ts:71-94):
    page through `fetchFriends` while the server hands back a truthy
    `nextUin`, concatenate the pages, record every friend's uin/uid pair in
    the identity map and index the friends by uin for the cache.

    The transport is the list of replies the server gives, in order; a reply
    list that ends while another page is still announced models a channel
    that stops answering. */
module FriendFetch {
  import opened Wrappers
  import opened Entities
  import opened Entries
  import opened Identity

  datatype FriendPage = FriendPage(friends: seq<Friend>, nextUin: Option<int>)

  /** `while (data.nextUin)`: absent and 0 both end the paging. */
  predicate HasNext(p: FriendPage) {
    p.nextUin.Some? && p.nextUin.value != 0
  }

  /** All friends of the pages, page by page, in order. */
  function Flatten(pages: seq<FriendPage>): (fs: seq<Friend>)
    ensures forall i, f | 0 <= i < |pages| && f in pages[i].friends :: f in fs
    ensures forall f | f in fs :: exists i | 0 <= i < |pages| :: f in pages[i].friends
  {
    if pages == [] then [] else Flatten(pages[..|pages| - 1]) + pages[|pages| - 1].friends
  }

  /** The friends of the first k pages are a prefix of the friends of all of
      them: fetching more pages only appends. */
  lemma {:induction false} FlattenPrefix(pages: seq<FriendPage>, k: nat)
    requires k <= |pages|
    ensures Flatten(pages[..k]) <= Flatten(pages)
    decreases |pages|
  {
    if k < |pages| {
      var init := pages[..|pages| - 1];
      FlattenPrefix(init, k);
      assert init[..k] == pages[..k];
    } else {
      assert pages[..k] == pages;
    }
  }

  datatype FetchOutcome =
    | Fetched(requests: nat, followUps: seq<int>, friends: seq<Friend>, identity: IdentityMap, cache: map<int, Friend>)
    | ChannelExhausted

  /** Page `k` is the first one that announces no further page. */
  ghost predicate StopsAt(pages: seq<FriendPage>, k: int) {
    0 <= k < |pages| && !HasNext(pages[k]) && forall j | 0 <= j < k :: HasNext(pages[j])
  }

  method FetchFriends(ids: IdentityMap, pages: seq<FriendPage>) returns (r: FetchOutcome)
    ensures r.ChannelExhausted? <==> forall k | 0 <= k < |pages| :: HasNext(pages[k])
    ensures r.Fetched? ==> r.requests >= 1 && StopsAt(pages, r.requests - 1)
    ensures r.Fetched? ==> r.friends == Flatten(pages[..r.requests])
    ensures r.Fetched? ==> |r.followUps| == r.requests - 1
    ensures r.Fetched? ==> forall j | 0 <= j < |r.followUps| :: pages[j].nextUin == Some(r.followUps[j])
    ensures r.Fetched? ==> r.identity == InsertFriends(ids, r.friends)
    ensures r.Fetched? ==> r.cache == FromEntries(r.friends, UinOf)
  {
    if |pages| == 0 {
      return ChannelExhausted;
    }
    var i := 0;
    var friends := pages[0].friends;
    var followUps: seq<int> := [];
    assert pages[..1] == [pages[0]];
    while HasNext(pages[i])
      invariant 0 <= i < |pages|
      invariant forall j | 0 <= j < i :: HasNext(pages[j])
      invariant friends == Flatten(pages[..i + 1])
      invariant |followUps| == i
      invariant forall j | 0 <= j < i :: pages[j].nextUin == Some(followUps[j])
      decreases |pages| - i
    {
      if i + 1 == |pages| {
        return ChannelExhausted;
      }
      followUps := followUps + [pages[i].nextUin.value];
      i := i + 1;
      assert pages[..i + 1][..i] == pages[..i];
      friends := friends + pages[i].friends;
    }
    var identity := InsertFriends(ids, friends);
    r := Fetched(i + 1, followUps, friends, identity, FromEntries(friends, UinOf));
  }

  /** Every fetched friend is in the cache under its uin, holding the latest
      record with that uin; afterwards the latest friend with a given uid
      resolves back to its uin. */
  lemma FetchedFriendIndexed(ids: IdentityMap, friends: seq<Friend>, i: int)
    requires 0 <= i < |friends| && LastWithKey(friends, UinOf, i)
    ensures friends[i].uin in FromEntries(friends, UinOf)
    ensures FromEntries(friends, UinOf)[friends[i].uin] == friends[i]
    ensures friends[i].uin in InsertFriends(ids, friends).uin2uid
    ensures InsertFriends(ids, friends).uin2uid[friends[i].uin] == friends[i].uid
  {
    var cache := FromEntries(friends, UinOf);
    assert UinOf(friends[i]) in cache && cache[UinOf(friends[i])] == friends[i];
    InsertFriendsLatestWins(ids, friends, i);
  }
}

=== FILE: group_message.dfy ===
/** The group message builder (src/app/message/outgoing/GroupMessageBuilder.ts):
    it collects outgoing segments in push order and, when built, stamps the
    message with the group's client sequence number, post-incrementing the
    group's counter. The base builder's own segment kinds other than
    mentions appear only as text segments already in the list. */
module GroupMessage {
  import opened Entities

  datatype OutgoingSegment =
    | TextSegment(content: string)
    | MentionSegment(uin: int, uid: string, name: string)

  datatype Builder = Builder(segments: seq<OutgoingSegment>)

  datatype MessageType = GroupMessage

  datatype OutgoingGroupMessage = OutgoingGroupMessage(
    kind: MessageType,
    groupUin: int,
    clientSequence: int,
    segments: seq<OutgoingSegment>)

  /** The display name of the "mention everyone" segment. */
  const MentionAllName: string := "@\U{5168}\U{4F53}\U{6210}\U{5458}"

  /** `member.card || member.nickname`: the group card unless it is unset or
      empty. */
  function DisplayName(m: Member): (name: string)
    ensures m.card.Some? && m.card.value != "" ==> name == m.card.value
    ensures m.card.None? || m.card.value == "" ==> name == m.nickname
  {
    if m.card.Some? && m.card.value != "" then m.card.value else m.nickname
  }

  /** `mention`: appends one mention of the member and leaves the earlier
      segments alone. */
  function Mention(b: Builder, m: Member): (r: Builder)
    ensures |r.segments| == |b.segments| + 1
    ensures r.segments[..|b.segments|] == b.segments
    ensures var s := r.segments[|b.segments|];
      && s.MentionSegment? && s.uin == m.uin && s.uid == m.uid
      && |s.name| >= 1 && s.name[0] == '@' && s.name[1..] == DisplayName(m)
  {
    Builder(b.segments + [MentionSegment(m.uin, m.uid, "@" + DisplayName(m))])
  }

  /** `mentionAll`: appends a mention of uin 0 with an empty uid. */
  function MentionAll(b: Builder): (r: Builder)
    ensures |r.segments| == |b.segments| + 1
    ensures r.segments[..|b.segments|] == b.segments
    ensures r.segments[|b.segments|] == MentionSegment(0, "", MentionAllName)
  {
    Builder(b.segments + [MentionSegment(0, "", MentionAllName)])
  }

  datatype Built = Built(message: OutgoingGroupMessage, group: Group)

  /** `build`: the message carries the group's current sequence number; the
      group leaves with its counter one higher and nothing else changed. */
  function Build(b: Builder, g: Group): (r: Built)
    ensures r.message.kind == GroupMessage
    ensures r.message.groupUin == g.uin
    ensures r.message.segments == b.segments
    ensures r.message.clientSequence == g.clientSequence
    ensures r.group.clientSequence == g.clientSequence + 1
    ensures r.group.(clientSequence := g.clientSequence) == g
  {
    Built(OutgoingGroupMessage(GroupMessage, g.uin, g.clientSequence, b.segments), g.(clientSequence := g.clientSequence + 1))
  }

  /** Two builds on the same group get consecutive, distinct numbers. */
  lemma SuccessiveBuildsConsecutive(b1: Builder, b2: Builder, g: Group)
    ensures var first := Build(b1, g);
      var second := Build(b2, first.group);
      && second.message.clientSequence == first.message.clientSequence + 1
      && second.message.clientSequence != first.message.clientSequence
  {
  }

  /** Builds every builder in turn on one group. */
  function BuildAll(bs: seq<Builder>, g: Group): (r: (seq<OutgoingGroupMessage>, Group))
    ensures |r.0| == |bs|
    ensures forall i | 0 <= i < |bs| :: r.0[i].clientSequence == g.clientSequence + i
    ensures forall i | 0 <= i < |bs| :: r.0[i].segments == bs[i].segments
    ensures r.1.clientSequence == g.clientSequence + |bs|
    ensures r.1.(clientSequence := g.clientSequence) == g
  {
    if bs == [] then ([], g)
    else
      var first := Build(bs[0], g);
      var rest := BuildAll(bs[1..], first.group);
      ([first.message] + rest.0, rest.1)
  }

  /** However many messages are built on a group, no two share a sequence
      number. */
  lemma BuildAllDistinct(bs: seq<Builder>, g: Group, i: int, j: int)
    requires 0 <= i < j < |bs|
    ensures BuildAll(bs, g).0[i].clientSequence < BuildAll(bs, g).0[j].clientSequence
  {
  }

  /** A builder step as the caller issues it. */
  datatype Step = MentionMember(member: Member) | MentionEveryone

  function Apply(b: Builder, step: Step): Builder {
    match step
    case MentionMember(m) => Mention(b, m)
    case MentionEveryone => MentionAll(b)
  }

  function ApplyAll(b: Builder, steps: seq<Step>): Builder
    decreases |steps|
  {
    if steps == [] then b else ApplyAll(Apply(b, steps[0]), steps[1..])
  }

  /** The segment a step pushes. */
  function SegmentOf(step: Step): OutgoingSegment {
    match step
    case MentionMember(m) => MentionSegment(m.uin, m.uid, "@" + DisplayName(m))
    case MentionEveryone => MentionSegment(0, "", MentionAllName)
  }

  /** After any sequence of steps the segments are the old ones followed by one
      segment per step, in the order the steps were issued. */
  lemma {:induction false} ApplyAllInPushOrder(b: Builder, steps: seq<Step>)
    ensures |ApplyAll(b, steps).segments| == |b.segments| + |steps|
    ensures ApplyAll(b, steps).segments[..|b.segments|] == b.segments
    ensures forall i | 0 <= i < |steps| :: ApplyAll(b, steps).segments[|b.segments| + i] == SegmentOf(steps[i])
    decreases |steps|
  {
    if steps != [] {
      var b1 := Apply(b, steps[0]);
      assert b1.segments == b.segments + [SegmentOf(steps[0])];
      ApplyAllInPushOrder(b1, steps[1..]);
      var r := ApplyAll(b, steps);
      assert r == ApplyAll(b1, steps[1..]);
      forall i | 0 <= i < |steps|
        ensures r.segments[|b.segments| + i] == SegmentOf(steps[i])
      {
        if i == 0 {
          assert r.segments[..|b1.segments|] == b1.segments;
          assert r.segments[|b.segments|] == b1.segments[|b.segments|];
        } else {
          assert steps[1..][i - 1] == steps[i];
        }
      }
      assert r.segments[..|b.segments|] == r.segments[..|b1.segments|][..|b.segments|];
    }
  }
}

=== FILE: hex.dfy ===
/** Byte buffers and their hexadecimal text form, as produced by
    `Buffer.prototype.toString('hex')` and read back by `Buffer.from(s, 'hex')`. */
module Hex {

  newtype uint8 = x: int | 0 <= x < 256

  type Bytes = seq<uint8>

  const Digits: string := "0123456789abcdef"

  /** The lower-case hexadecimal digit for a nibble. */
  function Digit(n: int): (c: char)
    requires 0 <= n < 16
  {
    Digits[n]
  }

  /** The value of one hexadecimal digit of either case, or -1 for any other
      character. */
  function Nibble(c: char): (n: int)
    ensures -1 <= n < 16
    ensures n == -1 <==> !IsHexDigit(c)
  {
    if '0' <= c <= '9' then c as int - '0' as int
    else if 'a' <= c <= 'f' then c as int - 'a' as int + 10
    else if 'A' <= c <= 'F' then c as int - 'A' as int + 10
    else -1
  }

  predicate IsHexDigit(c: char) {
    '0' <= c <= '9' || 'a' <= c <= 'f' || 'A' <= c <= 'F'
  }

  /** Text that `Encode` can produce: an even number of lower-case hex digits. */
  predicate IsCanonical(s: string) {
    |s| % 2 == 0 && forall i | 0 <= i < |s| :: IsLowerHexDigit(s[i])
  }

  predicate IsLowerHexDigit(c: char) {
    '0' <= c <= '9' || 'a' <= c <= 'f'
  }

  /** Two lower-case digits per byte, high nibble first. */
  function Encode(b: Bytes): (s: string)
    ensures |s| == 2 * |b|
    ensures IsCanonical(s)
    ensures s == "" <==> b == []
  {
    if b == [] then ""
    else [Digit(b[0] as int / 16), Digit(b[0] as int % 16)] + Encode(b[1..])
  }

  /** Node's hex decoding: reads two digits per byte and stops at the first pair
      that is not two hex digits; a trailing odd digit is ignored. */
  function Decode(s: string): (b: Bytes)
    ensures |b| <= |s| / 2
  {
    if |s| < 2 then []
    else
      var hi := Nibble(s[0]);
      var lo := Nibble(s[1]);
      if hi < 0 || lo < 0 then []
      else [(hi * 16 + lo) as uint8] + Decode(s[2..])
  }

  lemma NibbleOfDigit(n: int)
    requires 0 <= n < 16
    ensures Nibble(Digit(n)) == n
  {
  }

  /** Decoding undoes encoding for every buffer, the empty one included. */
  lemma {:induction false} DecodeEncode(b: Bytes)
    ensures Decode(Encode(b)) == b
  {
    if b != [] {
      var s := Encode(b);
      var hi := b[0] as int / 16;
      var lo := b[0] as int % 16;
      NibbleOfDigit(hi);
      NibbleOfDigit(lo);
      assert s[2..] == Encode(b[1..]);
      DecodeEncode(b[1..]);
    }
  }

  lemma DigitOfNibble(c: char)
    requires IsLowerHexDigit(c)
    ensures 0 <= Nibble(c) < 16 && Digit(Nibble(c)) == c
  {
  }

  lemma SplitByte(hi: int, lo: int)
    requires 0 <= hi < 16 && 0 <= lo < 16
    ensures (hi * 16 + lo) / 16 == hi && (hi * 16 + lo) % 16 == lo
  {
  }

  /** Encoding undoes decoding on canonical text. */
  lemma {:induction false} EncodeDecode(s: string)
    requires IsCanonical(s)
    ensures Encode(Decode(s)) == s
  {
    if |s| >= 2 {
      var rest := s[2..];
      assert IsCanonical(rest) by {
        forall i | 0 <= i < |rest|
          ensures IsLowerHexDigit(rest[i])
        {
          assert rest[i] == s[i + 2];
        }
      }
      DigitOfNibble(s[0]);
      DigitOfNibble(s[1]);
      var hi := Nibble(s[0]);
      var lo := Nibble(s[1]);
      SplitByte(hi, lo);
      var v := (hi * 16 + lo) as uint8;
      var b := [v] + Decode(rest);
      assert Decode(s) == b;
      assert b[0] == v && b[1..] == Decode(rest);
      EncodeDecode(rest);
      assert Encode(b) == [s[0], s[1]] + Encode(Decode(rest));
      assert s == [s[0], s[1]] + rest;
    }
  }

  /** Decoding stops at the first character that is not a hex digit: nothing
      after it contributes. */
  lemma {:induction false} DecodeStopsAtInvalidPair(s: string, t: string)
    requires |s| % 2 == 0
    requires |t| >= 2 && (!IsHexDigit(t[0]) || !IsHexDigit(t[1]))
    ensures Decode(s + t) == Decode(s)
  {
    if |s| >= 2 {
      assert (s + t)[0] == s[0] && (s + t)[1] == s[1];
      assert (s + t)[2..] == s[2..] + t;
      DecodeStopsAtInvalidPair(s[2..], t);
    } else {
      assert s + t == t;
    }
  }

  /** A trailing odd digit is ignored. */
  lemma {:induction false} DecodeDropsOddDigit(s: string, c: char)
    requires |s| % 2 == 0
    ensures Decode(s + [c]) == Decode(s)
  {
    if |s| >= 2 {
      assert (s + [c])[0] == s[0] && (s + [c])[1] == s[1];
      assert (s + [c])[2..] == s[2..] + [c];
      DecodeDropsOddDigit(s[2..], c);
    }
  }

  /** Text made only of hex digits, of either case, decodes completely: byte
      `i` is the value of digits `2i` (high) and `2i + 1` (low). */
  lemma {:induction false} DecodeAllDigits(s: string)
    requires |s| % 2 == 0
    requires forall i | 0 <= i < |s| :: IsHexDigit(s[i])
    ensures |Decode(s)| == |s| / 2
    ensures forall i | 0 <= i < |s| / 2 :: Decode(s)[i] as int == Nibble(s[2 * i]) * 16 + Nibble(s[2 * i + 1])
  {
    if |s| >= 2 {
      var rest := s[2..];
      assert forall i | 0 <= i < |rest| :: rest[i] == s[i + 2];
      DecodeAllDigits(rest);
      var b := Decode(s);
      assert b == [(Nibble(s[0]) * 16 + Nibble(s[1])) as uint8] + Decode(rest);
      forall i | 1 <= i < |s| / 2
        ensures b[i] as int == Nibble(s[2 * i]) * 16 + Nibble(s[2 * i + 1])
      {
        assert b[i] == Decode(rest)[i - 1];
        assert rest[2 * (i - 1)] == s[2 * i] && rest[2 * (i - 1) + 1] == s[2 * i + 1];
      }
    }
  }
}

=== FILE: identity.dfy ===
/** The uin <-> uid identity map. The identity service's own code is not part
    of this model: its two maps are plain finite maps, and `resolveUin`
    is a lookup in `uid2uin`. The core fills both maps directly, one `.set`
    on each side per friend (packages/core/src/index.ts:80-83). */
module Identity {
  import opened Wrappers
  import opened Entities
  import opened Entries

  datatype IdentityMap = IdentityMap(uin2uid: map<int, string>, uid2uin: map<string, int>)

  const Empty := IdentityMap(map[], map[])

  function ResolveUin(ids: IdentityMap, uid: string): (r: Option<int>)
    ensures r.Some? <==> uid in ids.uid2uin
    ensures r.Some? ==> r.value == ids.uid2uin[uid]
  {
    if uid in ids.uid2uin then Some(ids.uid2uin[uid]) else None
  }

  /** The handlers test `if (!uin) return`: an absent uin and the uin 0 are
      both treated as "cannot attribute". */
  predicate Resolves(ids: IdentityMap, uid: string) {
    var r := ResolveUin(ids, uid);
    r.Some? && r.value != 0
  }

  /** Records one observed pair on both sides. */
  function Insert(ids: IdentityMap, uin: int, uid: string): (r: IdentityMap)
    ensures ResolveUin(r, uid) == Some(uin)
    ensures uin in r.uin2uid && r.uin2uid[uin] == uid
    ensures forall u | u != uin :: (u in r.uin2uid <==> u in ids.uin2uid)
    ensures forall u | u != uin && u in ids.uin2uid :: r.uin2uid[u] == ids.uin2uid[u]
    ensures forall d | d != uid :: ResolveUin(r, d) == ResolveUin(ids, d)
  {
    IdentityMap(ids.uin2uid[uin := uid], ids.uid2uin[uid := uin])
  }

  /** Each side is the inverse of the other. */
  ghost predicate Inverse(ids: IdentityMap) {
    && (forall u | u in ids.uin2uid :: ids.uin2uid[u] in ids.uid2uin && ids.uid2uin[ids.uin2uid[u]] == u)
    && (forall d | d in ids.uid2uin :: ids.uid2uin[d] in ids.uin2uid && ids.uin2uid[ids.uid2uin[d]] == d)
  }

  /** The pair agrees with what is already known about either identifier. */
  predicate Compatible(ids: IdentityMap, uin: int, uid: string) {
    && (uin in ids.uin2uid ==> ids.uin2uid[uin] == uid)
    && (uid in ids.uid2uin ==> ids.uid2uin[uid] == uin)
  }

  /** Inserting a compatible pair keeps the two sides inverse. */
  lemma InsertKeepsInverse(ids: IdentityMap, uin: int, uid: string)
    requires Inverse(ids) && Compatible(ids, uin, uid)
    ensures Inverse(Insert(ids, uin, uid))
  {
  }

  /** Without compatibility the source's two `.set` calls break the inverse:
      a second account claiming a known uid leaves the first account's entry
      pointing at a uid that no longer maps back to it. */
  lemma ConflictingInsertBreaksInverse()
    ensures Inverse(Insert(Empty, 1, "a"))
    ensures !Inverse(Insert(Insert(Empty, 1, "a"), 2, "a"))
  {
    var ids := Insert(Insert(Empty, 1, "a"), 2, "a");
    assert ids.uin2uid[1] == "a" && ids.uid2uin["a"] == 2;
  }

  function UinOf(f: Friend): int { f.uin }

  function UidOf(f: Friend): string { f.uid }

  /** The friend fetch's `forEach`: every friend's pair is recorded, in list
      order. Nothing is ever removed. */
  function InsertFriends(ids: IdentityMap, fs: seq<Friend>): (r: IdentityMap)
    ensures ids.uin2uid.Keys <= r.uin2uid.Keys && ids.uid2uin.Keys <= r.uid2uin.Keys
  {
    if fs == [] then ids
    else Insert(InsertFriends(ids, fs[..|fs| - 1]), fs[|fs| - 1].uin, fs[|fs| - 1].uid)
  }

  /** Reference reading of the same insertion: index the friend list by uin
      (and by uid), latest friend winning, and lay that over the old map. */
  function UidByUin(fs: seq<Friend>): map<int, string> {
    Project(FromEntries(fs, UinOf), UidOf)
  }

  function UinByUid(fs: seq<Friend>): map<string, int> {
    Project(FromEntries(fs, UidOf), UinOf)
  }

  lemma {:induction false} InsertFriendsAsEntries(ids: IdentityMap, fs: seq<Friend>)
    ensures InsertFriends(ids, fs).uin2uid == ids.uin2uid + UidByUin(fs)
    ensures InsertFriends(ids, fs).uid2uin == ids.uid2uin + UinByUid(fs)
  {
    if fs != [] {
      var init := fs[..|fs| - 1];
      var last := fs[|fs| - 1];
      InsertFriendsAsEntries(ids, init);
      ProjectUpdate(FromEntries(init, UinOf), last.uin, last, UidOf);
      ProjectUpdate(FromEntries(init, UidOf), last.uid, last, UinOf);
      UnionUpdate(ids.uin2uid, UidByUin(init), last.uin, last.uid);
      UnionUpdate(ids.uid2uin, UinByUid(init), last.uid, last.uin);
    }
  }

  /** After the insertion every friend that is the latest with its uin is
      resolvable from that uin, and the latest with its uid from that uid. */
  lemma InsertFriendsLatestWins(ids: IdentityMap, fs: seq<Friend>, i: int)
    requires 0 <= i < |fs|
    ensures LastWithKey(fs, UinOf, i) ==>
      fs[i].uin in InsertFriends(ids, fs).uin2uid && InsertFriends(ids, fs).uin2uid[fs[i].uin] == fs[i].uid
    ensures LastWithKey(fs, UidOf, i) ==> ResolveUin(InsertFriends(ids, fs), fs[i].uid) == Some(fs[i].uin)
  {
    InsertFriendsAsEntries(ids, fs);
    assert UinOf(fs[i]) in FromEntries(fs, UinOf);
    assert UidOf(fs[i]) in FromEntries(fs, UidOf);
  }

  /** Identifiers that no friend mentions keep their old entries. */
  lemma InsertFriendsKeepsOthers(ids: IdentityMap, fs: seq<Friend>, uid: string)
    requires forall i | 0 <= i < |fs| :: fs[i].uid != uid
    ensures ResolveUin(InsertFriends(ids, fs), uid) == ResolveUin(ids, uid)
  {
    InsertFriendsAsEntries(ids, fs);
    assert uid !in FromEntries(fs, UidOf);
  }

  /** The friend list's pairs, taken alone, are consistent when no uin and no
      uid occurs with two different partners. */
  ghost predicate ConsistentPairs(fs: seq<Friend>) {
    forall i, j | 0 <= i < |fs| && 0 <= j < |fs| :: (fs[i].uin == fs[j].uin <==> fs[i].uid == fs[j].uid)
  }

  /** Starting from an empty map, a consistent friend list yields two maps that
      are each other's inverse, as the identity service promises. */
  lemma {:induction false} InsertFriendsInverse(fs: seq<Friend>)
    requires ConsistentPairs(fs)
    ensures Inverse(InsertFriends(Empty, fs))
  {
    if fs != [] {
      var init := fs[..|fs| - 1];
      ConsistentPrefix(fs);
      InsertFriendsInverse(init);
      LatestCompatible(fs);
      InsertKeepsInverse(InsertFriends(Empty, init), fs[|fs| - 1].uin, fs[|fs| - 1].uid);
    }
  }

  lemma ConsistentPrefix(fs: seq<Friend>)
    requires fs != [] && ConsistentPairs(fs)
    ensures ConsistentPairs(fs[..|fs| - 1])
  {
    var init := fs[..|fs| - 1];
    forall i, j | 0 <= i < |init| && 0 <= j < |init|
      ensures init[i].uin == init[j].uin <==> init[i].uid == init[j].uid
    {
      assert init[i] == fs[i] && init[j] == fs[j];
    }
  }

  /** The last friend of a consistent list agrees with what the earlier ones
      recorded. */
  lemma LatestCompatible(fs: seq<Friend>)
    requires fs != []
    requires forall i | 0 <= i < |fs| - 1 :: (fs[i].uin == fs[|fs| - 1].uin <==> fs[i].uid == fs[|fs| - 1].uid)
    ensures Compatible(InsertFriends(Empty, fs[..|fs| - 1]), fs[|fs| - 1].uin, fs[|fs| - 1].uid)
  {
    InsertFriendsAsEntries(Empty, fs[..|fs| - 1]);
    KnownUinAgrees(fs);
    KnownUidAgrees(fs);
  }

  lemma KnownUinAgrees(fs: seq<Friend>)
    requires fs != []
    requires forall i | 0 <= i < |fs| - 1 :: (fs[i].uin == fs[|fs| - 1].uin ==> fs[i].uid == fs[|fs| - 1].uid)
    ensures var byUin := FromEntries(fs[..|fs| - 1], UinOf);
      fs[|fs| - 1].uin in byUin ==> byUin[fs[|fs| - 1].uin].uid == fs[|fs| - 1].uid
  {
    var init := fs[..|fs| - 1];
    var last := fs[|fs| - 1];
    if last.uin in FromEntries(init, UinOf) {
      FromEntriesSource(init, UinOf, last.uin);
      var i :| 0 <= i < |init| && init[i] == FromEntries(init, UinOf)[last.uin] && init[i].uin == last.uin;
      assert init[i] == fs[i];
    }
  }

  lemma KnownUidAgrees(fs: seq<Friend>)
    requires fs != []
    requires forall i | 0 <= i < |fs| - 1 :: (fs[i].uid == fs[|fs| - 1].uid ==> fs[i].uin == fs[|fs| - 1].uin)
    ensures var byUid := FromEntries(fs[..|fs| - 1], UidOf);
      fs[|fs| - 1].uid in byUid ==> byUid[fs[|fs| - 1].uid].uin == fs[|fs| - 1].uin
  {
    var init := fs[..|fs| - 1];
    var last := fs[|fs| - 1];
    if last.uid in FromEntries(init, UidOf) {
      FromEntriesSource(init, UidOf, last.uid);
      var i :| 0 <= i < |init| && init[i] == FromEntries(init, UidOf)[last.uid] && init[i].uid == last.uid;
      assert init[i] == fs[i];
    }
  }
}

=== FILE: login.dfy ===
/** The bot's login flows (packages/core/src/index.ts:256-385) as functions of
    the server's replies. Each request the bot sends through the operation
    channel is logged in `calls`; each reply it would receive is a parameter.
    Timers are not modelled: the QR poll is the list of poll replies in
    the order they arrive, and the heartbeat is only counted when started. */
module Login {
  import opened Wrappers
  import opened Hex
  import opened Entities

  /** The bot object's state that the login flows touch. `heartbeats` counts
      the heartbeat timers started; none is ever cleared. */
  datatype Bot = Bot(keystore: Keystore, loggedIn: bool, heartbeats: nat)

  /** Requests sent through the operation channel. */
  datatype Operation = FetchQrCode | QueryQrCodeResult | WtLogin | KeyExchange | NtEasyLogin | BotOnline

  datatype LoginError =
    | SessionExpiredOrCancelled
    | LoginRejected(state: int, tag: int, message: string)
    | EasyLoginRejected(errorCode: int)
    | OnlineRejected(reply: Option<string>)

  /** `AwaitingQr`: the poll replies ran out before one ended the polling, so
      the login promise is still pending. */
  datatype Outcome = Online | Failed(error: LoginError) | AwaitingQr

  datatype Run = Run(bot: Bot, outcome: Outcome, calls: seq<Operation>)

  // ------------------------------------------------------------- uin getter

  /** The `uin` getter: the keystore's uin, or absent while it is 0. */
  function BotUin(k: Keystore): (r: Option<int>)
    ensures r.None? <==> k.uin == 0
    ensures r.Some? ==> r.value == k.uin && r.value != 0
  {
    if k.uin == 0 then None else Some(k.uin)
  }

  // ----------------------------------------------------------- bot online

  const RegisterSuccess: string := "register success"

  /** `pat` occurs in `text` starting at position `i`. */
  predicate OccursAt(text: string, pat: string, i: int) {
    0 <= i && i + |pat| <= |text| && text[i..i + |pat|] == pat
  }

  lemma ShiftOccurrence(text: string, pat: string)
    requires text != []
    ensures (exists i :: OccursAt(text[1..], pat, i)) <==> (exists i :: 1 <= i && OccursAt(text, pat, i))
  {
    if i :| OccursAt(text[1..], pat, i) {
      assert text[1..][i..i + |pat|] == text[i + 1..i + 1 + |pat|];
      assert OccursAt(text, pat, i + 1);
    }
    if i :| 1 <= i && OccursAt(text, pat, i) {
      assert text[1..][i - 1..i - 1 + |pat|] == text[i..i + |pat|];
      assert OccursAt(text[1..], pat, i - 1);
    }
  }

  /** JavaScript's `String.prototype.includes`, scanning left to right. */
  function Includes(text: string, pat: string): (b: bool)
    ensures b <==> exists i :: OccursAt(text, pat, i)
    decreases |text|
  {
    if pat <= text then
      assert OccursAt(text, pat, 0);
      true
    else if text == [] then
      false
    else
      ShiftOccurrence(text, pat);
      assert !OccursAt(text, pat, 0);
      Includes(text[1..], pat)
  }

  /** The online-registration reply is a success: it is present and contains
      the marker text somewhere. */
  ghost predicate Registered(reply: Option<string>) {
    reply.Some? && exists i :: OccursAt(reply.value, RegisterSuccess, i)
  }

  /** `botOnline`: on success mark the bot logged in and start a heartbeat;
      otherwise throw and leave the bot as it was. */
  function GoOnline(b: Bot, reply: Option<string>): (r: Run)
    ensures r.calls == [BotOnline]
    ensures r.outcome.Online? <==> Registered(reply)
    ensures !r.outcome.Online? ==> r.outcome == Failed(OnlineRejected(reply)) && r.bot == b
    ensures r.outcome.Online? ==> r.bot.loggedIn && r.bot.keystore == b.keystore
    ensures r.outcome.Online? ==> r.bot.heartbeats == b.heartbeats + 1
  {
    if reply.Some? && Includes(reply.value, RegisterSuccess) then
      Run(b.(loggedIn := true, heartbeats := b.heartbeats + 1), Online, [BotOnline])
    else
      Run(b, Failed(OnlineRejected(reply)), [BotOnline])
  }

  // ------------------------------------------------ key exchange, easy login

  datatype KeyExchangeReply = KeyExchangeReply(gcmKey: Bytes, sign: Bytes)

  datatype EasyLoginReply =
    | EasyLoginAccepted(d2Key: Bytes, tgt: Bytes, d2: Bytes, tempPassword: Option<Bytes>, sessionDate: int)
    | EasyLoginFailed(errorCode: int)

  /** The session keys a login writes. */
  datatype SessionKeys = SessionKeys(d2Key: Bytes, d2: Bytes, tgt: Bytes, tempPassword: Option<Bytes>, sessionDate: int)

  function KeysOf(k: Keystore): SessionKeys {
    SessionKeys(k.session.d2Key, k.session.d2, k.session.tgt, k.session.tempPassword, k.session.sessionDate)
  }

  /** `keyExchange`: stores the exchanged key and its signature, nothing else. */
  function ExchangeKeys(b: Bot, reply: KeyExchangeReply): (r: Bot)
    ensures r.keystore.session.exchangeKey == Some(reply.gcmKey)
    ensures r.keystore.session.keySign == Some(reply.sign)
    ensures KeysOf(r.keystore) == KeysOf(b.keystore)
    ensures r.loggedIn == b.loggedIn && r.heartbeats == b.heartbeats
    ensures r.keystore.(session := r.keystore.session.(exchangeKey := b.keystore.session.exchangeKey, keySign := b.keystore.session.keySign)) == b.keystore
  {
    var k := b.keystore;
    b.(keystore := k.(session := k.session.(exchangeKey := Some(reply.gcmKey), keySign := Some(reply.sign))))
  }

  /** `ntEasyLogin`: on a rejected reply throw with the error code and change
      nothing; otherwise store the new session keys and go online. */
  function EasyLogin(b: Bot, reply: EasyLoginReply, online: Option<string>): (r: Run)
    ensures reply.EasyLoginFailed? ==> r == Run(b, Failed(EasyLoginRejected(reply.errorCode)), [NtEasyLogin])
    ensures reply.EasyLoginAccepted? ==> r.calls == [NtEasyLogin, BotOnline]
    ensures reply.EasyLoginAccepted? ==>
      KeysOf(r.bot.keystore) == SessionKeys(reply.d2Key, reply.d2, reply.tgt, reply.tempPassword, reply.sessionDate)
    ensures reply.EasyLoginAccepted? ==>
      var s := b.keystore.session;
      r.bot.keystore.(session := r.bot.keystore.session.(d2Key := s.d2Key, tgt := s.tgt, d2 := s.d2, tempPassword := s.tempPassword, sessionDate := s.sessionDate)) == b.keystore
    ensures r.outcome.Online? <==> reply.EasyLoginAccepted? && Registered(online)
  {
    match reply
    case EasyLoginFailed(code) => Run(b, Failed(EasyLoginRejected(code)), [NtEasyLogin])
    case EasyLoginAccepted(d2Key, tgt, d2, tempPassword, sessionDate) =>
      var k := b.keystore;
      var session := k.session.(d2Key := d2Key, tgt := tgt, d2 := d2, tempPassword := tempPassword, sessionDate := sessionDate);
      var on := GoOnline(b.(keystore := k.(session := session)), online);
      Run(on.bot, on.outcome, [NtEasyLogin] + on.calls)
  }

  /** `fastLogin`: try to go online with the stored session; only if that
      fails, exchange keys and easy-login, which goes online a second time. */
  function FastLogin(b: Bot, first: Option<string>, kx: KeyExchangeReply, easy: EasyLoginReply, second: Option<string>): (r: Run)
    ensures |r.calls| >= 1 && r.calls[0] == BotOnline
    ensures Registered(first) ==> r.calls == [BotOnline] && r.outcome == Online
    ensures !Registered(first) ==> |r.calls| >= 3 && r.calls[..3] == [BotOnline, KeyExchange, NtEasyLogin]
    ensures forall i | 1 <= i < |r.calls| && r.calls[i] == BotOnline :: i == 3 && !Registered(first) && easy.EasyLoginAccepted?
    ensures !Registered(first) && easy.EasyLoginFailed? ==> r.calls == [BotOnline, KeyExchange, NtEasyLogin]
    ensures !Registered(first) && easy.EasyLoginAccepted? ==>
      && r.calls == [BotOnline, KeyExchange, NtEasyLogin, BotOnline]
      && KeysOf(r.bot.keystore) == SessionKeys(easy.d2Key, easy.d2, easy.tgt, easy.tempPassword, easy.sessionDate)
    ensures !Registered(first) ==>
      r.bot.keystore.session.exchangeKey == Some(kx.gcmKey) && r.bot.keystore.session.keySign == Some(kx.sign)
    ensures r.outcome.Online? <==> Registered(first) || (easy.EasyLoginAccepted? && Registered(second))
    ensures r.outcome.Online? ==> r.bot.loggedIn && r.bot.heartbeats == b.heartbeats + 1
    ensures !r.outcome.Online? ==> r.bot.loggedIn == b.loggedIn && r.bot.heartbeats == b.heartbeats
    ensures !Registered(first) && easy.EasyLoginFailed? ==>
      && r.outcome == Failed(EasyLoginRejected(easy.errorCode))
      && KeysOf(r.bot.keystore) == KeysOf(b.keystore)
  {
    var on := GoOnline(b, first);
    if on.outcome.Online? then on
    else
      var exchanged := ExchangeKeys(b, kx);
      var easyRun := EasyLogin(exchanged, easy, second);
      Run(easyRun.bot, easyRun.outcome, [BotOnline, KeyExchange] + easyRun.calls)
  }

  // ---------------------------------------------------------------- QR code

  const DefaultQrPollInterval := 5000
  const MinQrPollInterval := 2000

  /** The poll interval in milliseconds: the requested one (5000 when none
      is given), raised to at least 2000. */
  function QrPollInterval(requested: Option<int>): (ms: int)
    ensures ms >= MinQrPollInterval
    ensures requested.None? ==> ms == DefaultQrPollInterval
    ensures requested.Some? ==> ms >= requested.value && (ms == requested.value || ms == MinQrPollInterval)
  {
    var r := requested.GetOr(DefaultQrPollInterval);
    if r < MinQrPollInterval then MinQrPollInterval else r
  }

  /** Named poll states; the numeric codes of the wire enum are not modelled. */
  datatype QrCodeState = WaitingForScan | WaitingForConfirm | CodeExpired | Canceled | OtherState(code: int)

  datatype QrPollReply =
    | QrConfirmed(tempPassword: Bytes, noPicSig: Bytes, tgtgtKey: Bytes)
    | QrNotConfirmed(state: QrCodeState)

  /** The poll callback clears its timer on this reply. */
  predicate EndsPolling(r: QrPollReply) {
    r.QrConfirmed? || r.state == CodeExpired || r.state == Canceled
  }

  /** The position of the reply that ends the polling, if any arrives. */
  function FirstStop(polls: seq<QrPollReply>): (k: Option<nat>)
    ensures k.None? <==> forall j | 0 <= j < |polls| :: !EndsPolling(polls[j])
    ensures k.Some? ==> k.value < |polls| && EndsPolling(polls[k.value])
    ensures k.Some? ==> forall j | 0 <= j < k.value :: !EndsPolling(polls[j])
  {
    if polls == [] then None
    else if EndsPolling(polls[0]) then Some(0)
    else
      match FirstStop(polls[1..])
      case None => None
      case Some(k) => Some(k + 1)
  }

  function Queries(n: nat): (q: seq<Operation>)
    ensures |q| == n && forall j | 0 <= j < n :: q[j] == QueryQrCodeResult
  {
    seq(n, _ => QueryQrCodeResult)
  }

  datatype QrCodeInfo = QrCodeInfo(signature: Bytes, qrSig: string, url: string, qrCode: Bytes)

  /** What the caller's QR callback is handed: the URL and the PNG image. */
  datatype QrDisplay = QrDisplay(url: string, png: Bytes)

  datatype WtLoginSession = WtLoginSession(d2Key: Bytes, tgt: Bytes, d2: Bytes, tempPassword: Option<Bytes>, sessionDate: int)

  datatype WtLoginReply =
    | WtLoginAccepted(uid: string, session: WtLoginSession, info: AccountInfo)
    | WtLoginFailed(state: int, tag: int, message: string)

  datatype QrLogin = QrLogin(shown: QrDisplay, run: Run)

  /** `qrCodeLogin`: fetch a QR code, show it, poll until confirmed, expired
      or cancelled, then log in with the account number `correctUin` and go
      online. Fields written before a failure stay written. */
  function QrCodeLogin(b: Bot, qr: QrCodeInfo, polls: seq<QrPollReply>, correctUin: int,
                       wt: WtLoginReply, online: Option<string>): (r: QrLogin)
    ensures r.shown == QrDisplay(qr.url, qr.qrCode)
    ensures r.run.bot.keystore.session.qrSign == Some(qr.signature)
    ensures r.run.bot.keystore.session.qrString == Some(qr.qrSig)
    ensures r.run.bot.keystore.session.qrUrl == Some(qr.url)
    ensures FirstStop(polls).None? ==> r.run.outcome == AwaitingQr && r.run.calls == [FetchQrCode] + Queries(|polls|)
    ensures FirstStop(polls).Some? ==>
      var k := FirstStop(polls).value;
      && |r.run.calls| >= k + 2
      && r.run.calls[..k + 2] == [FetchQrCode] + Queries(k + 1)
      && QueryQrCodeResult !in r.run.calls[k + 2..]
    ensures FirstStop(polls).Some? && polls[FirstStop(polls).value].QrNotConfirmed? ==>
      && r.run.outcome == Failed(SessionExpiredOrCancelled)
      && r.run.calls == [FetchQrCode] + Queries(FirstStop(polls).value + 1)
      && WtLogin !in r.run.calls
      && r.run.bot.keystore.session.tempPassword == b.keystore.session.tempPassword
      && r.run.bot.keystore.session.noPicSig == b.keystore.session.noPicSig
      && r.run.bot.keystore.stub == b.keystore.stub
      && r.run.bot.keystore.uin == b.keystore.uin
    ensures FirstStop(polls).Some? && polls[FirstStop(polls).value].QrConfirmed? ==>
      var p := polls[FirstStop(polls).value];
      && WtLogin in r.run.calls
      && r.run.bot.keystore.uin == correctUin
      && r.run.bot.keystore.stub.tgtgtKey == p.tgtgtKey
      && r.run.bot.keystore.session.noPicSig == Some(p.noPicSig)
      && (wt.WtLoginFailed? ==> r.run.bot.keystore.session.tempPassword == Some(p.tempPassword))
    ensures FirstStop(polls).Some? && polls[FirstStop(polls).value].QrConfirmed? && wt.WtLoginFailed? ==>
      var k := FirstStop(polls).value;
      && r.run.outcome == Failed(LoginRejected(wt.state, wt.tag, wt.message))
      && r.run.calls == [FetchQrCode] + Queries(k + 1) + [WtLogin]
    ensures FirstStop(polls).Some? && polls[FirstStop(polls).value].QrConfirmed? && wt.WtLoginAccepted? ==>
      var k := FirstStop(polls).value;
      && r.run.calls == [FetchQrCode] + Queries(k + 1) + [WtLogin, BotOnline]
      && (!Registered(online) ==> r.run.outcome == Failed(OnlineRejected(online)))
      && r.run.bot.keystore.uid == Some(wt.uid)
      && KeysOf(r.run.bot.keystore) == SessionKeys(wt.session.d2Key, wt.session.d2, wt.session.tgt, wt.session.tempPassword, wt.session.sessionDate)
      && r.run.bot.keystore.info == wt.info
    ensures r.run.outcome.Online? <==>
      FirstStop(polls).Some? && polls[FirstStop(polls).value].QrConfirmed? && wt.WtLoginAccepted? && Registered(online)
    ensures r.run.outcome.Online? ==>
      && r.run.bot.loggedIn
      && r.run.bot.keystore.uid == Some(wt.uid)
      && KeysOf(r.run.bot.keystore) == SessionKeys(wt.session.d2Key, wt.session.d2, wt.session.tgt, wt.session.tempPassword, wt.session.sessionDate)
      && r.run.bot.keystore.info == wt.info
  {
    var k0 := b.keystore;
    var k1 := k0.(session := k0.session.(qrSign := Some(qr.signature), qrString := Some(qr.qrSig), qrUrl := Some(qr.url)));
    var shown := QrDisplay(qr.url, qr.qrCode);
    match FirstStop(polls)
    case None => QrLogin(shown, Run(b.(keystore := k1), AwaitingQr, [FetchQrCode] + Queries(|polls|)))
    case Some(k) =>
      var polled := [FetchQrCode] + Queries(k + 1);
      match polls[k]
      case QrNotConfirmed(_) =>
        QrLogin(shown, Run(b.(keystore := k1), Failed(SessionExpiredOrCancelled), polled))
      case QrConfirmed(tempPassword, noPicSig, tgtgtKey) =>
        var k2 := k1.(
          uin := correctUin,
          stub := k1.stub.(tgtgtKey := tgtgtKey),
          session := k1.session.(tempPassword := Some(tempPassword), noPicSig := Some(noPicSig)));
        match wt
        case WtLoginFailed(state, tag, message) =>
          QrLogin(shown, Run(b.(keystore := k2), Failed(LoginRejected(state, tag, message)), polled + [WtLogin]))
        case WtLoginAccepted(uid, s, info) =>
          var k3 := k2.(
            uid := Some(uid),
            session := k2.session.(d2Key := s.d2Key, tgt := s.tgt, d2 := s.d2, tempPassword := s.tempPassword, sessionDate := s.sessionDate),
            info := info);
          var on := GoOnline(b.(keystore := k3), online);
          QrLogin(shown, Run(on.bot, on.outcome, polled + [WtLogin] + on.calls))
  }

  /** Three polls, the third confirming: exactly three queries, then the login
      request. */
  lemma QrConfirmedOnThirdPoll(b: Bot, qr: QrCodeInfo, c: QrPollReply, correctUin: int, wt: WtLoginReply, online: Option<string>)
    requires c.QrConfirmed?
    ensures var r := QrCodeLogin(b, qr, [QrNotConfirmed(WaitingForScan), QrNotConfirmed(WaitingForConfirm), c], correctUin, wt, online);
      |r.run.calls| >= 5 && r.run.calls[..5] == [FetchQrCode, QueryQrCodeResult, QueryQrCodeResult, QueryQrCodeResult, WtLogin]
  {
    var polls := [QrNotConfirmed(WaitingForScan), QrNotConfirmed(WaitingForConfirm), c];
    assert polls[1..][1..] == [c];
    assert FirstStop(polls[1..][1..]) == Some(0);
    assert FirstStop(polls) == Some(2);
  }

  /** An expired code after one pending poll fails without a login request,
      and later replies are never read. */
  lemma QrExpiredOnSecondPoll(b: Bot, qr: QrCodeInfo, later: seq<QrPollReply>, correctUin: int, wt: WtLoginReply, online: Option<string>)
    ensures var r := QrCodeLogin(b, qr, [QrNotConfirmed(WaitingForScan), QrNotConfirmed(CodeExpired)] + later, correctUin, wt, online);
      r.run.outcome == Failed(SessionExpiredOrCancelled) && r.run.calls == [FetchQrCode, QueryQrCodeResult, QueryQrCodeResult]
  {
    var polls := [QrNotConfirmed(WaitingForScan), QrNotConfirmed(CodeExpired)] + later;
    assert polls[1..][0] == QrNotConfirmed(CodeExpired);
    assert FirstStop(polls) == Some(1);
  }
}

=== FILE: segments.dfy ===
/** The outgoing segment registry (src/core/message/outgoing/segment-base.ts):
    builders are registered by segment type, a segment is dispatched to the
    builder registered under its `type`, and a segment of an unregistered
    type yields nothing. The message and bot context a builder receives are
    folded into one opaque argument `X`; the encoded element is `E`. */
module Segments {
  import opened Wrappers
  import opened Entries

  /** An outgoing segment: its `type` tag and the rest of its fields. */
  datatype Segment<S> = Segment(kind: string, body: S)

  datatype SegmentBuilder<!S, !X, E> = SegmentBuilder(segmentType: string, build: (Segment<S>, X) -> E)

  /** `defineOutgoing`: pairs a type tag with its build function. */
  function DefineOutgoing<S, X, E>(segmentType: string, build: (Segment<S>, X) -> E): (b: SegmentBuilder<S, X, E>)
    ensures b.segmentType == segmentType && b.build == build
  {
    SegmentBuilder(segmentType, build)
  }

  function TypeOf<S, X, E>(b: SegmentBuilder<S, X, E>): string {
    b.segmentType
  }

  datatype Collection<!S, !X, E> = Collection(builderMap: map<string, SegmentBuilder<S, X, E>>)

  /** The constructor's `Object.fromEntries`: every builder is reachable under
      its own type, and when two builders share a type the later one wins. */
  function NewCollection<S, X, E>(builders: seq<SegmentBuilder<S, X, E>>): (c: Collection<S, X, E>)
    ensures c.builderMap.Keys == set i | 0 <= i < |builders| :: builders[i].segmentType
    ensures forall i | 0 <= i < |builders| && LastWithKey(builders, TypeOf, i) ::
      builders[i].segmentType in c.builderMap && c.builderMap[builders[i].segmentType] == builders[i]
  {
    Collection(FromEntries(builders, TypeOf))
  }

  /** `build`: the registered builder's result, or nothing for an unknown
      type. */
  function Build<S, X, E>(c: Collection<S, X, E>, segment: Segment<S>, context: X): (r: Option<E>)
    ensures r.None? <==> segment.kind !in c.builderMap
    ensures r.Some? ==> r.value == c.builderMap[segment.kind].build(segment, context)
  {
    if segment.kind in c.builderMap then Some(c.builderMap[segment.kind].build(segment, context)) else None
  }

  /** Dispatch through a collection made from a builder list: nothing when no
      builder has the segment's type, otherwise the last such builder's
      output. */
  lemma DispatchToLastRegistered<S, X, E>(builders: seq<SegmentBuilder<S, X, E>>, segment: Segment<S>, context: X, i: int)
    requires 0 <= i < |builders| && builders[i].segmentType == segment.kind
    requires forall j | i < j < |builders| :: builders[j].segmentType != segment.kind
    ensures Build(NewCollection(builders), segment, context) == Some(builders[i].build(segment, context))
  {
    assert LastWithKey(builders, TypeOf, i);
  }

  lemma DispatchUnknownType<S, X, E>(builders: seq<SegmentBuilder<S, X, E>>, segment: Segment<S>, context: X)
    requires forall j | 0 <= j < |builders| :: builders[j].segmentType != segment.kind
    ensures Build(NewCollection(builders), segment, context) == None
  {
  }

  /** `outgoingSegments`: the text builder, then the mention builder. */
  function DefaultCollection<S, X, E>(text: SegmentBuilder<S, X, E>, mention: SegmentBuilder<S, X, E>): Collection<S, X, E> {
    NewCollection([text, mention])
  }

  /** With the text builder tagged "text" and the mention builder tagged
      "mention" (their own files are not part of this model), the default
      collection knows exactly these two types and sends each segment to the
      builder of its type. */
  lemma DefaultCollectionDispatch<S, X, E>(text: SegmentBuilder<S, X, E>, mention: SegmentBuilder<S, X, E>, segment: Segment<S>, context: X)
    requires text.segmentType == "text" && mention.segmentType == "mention"
    ensures DefaultCollection(text, mention).builderMap.Keys == {"text", "mention"}
    ensures segment.kind == "text" ==> Build(DefaultCollection(text, mention), segment, context) == Some(text.build(segment, context))
    ensures segment.kind == "mention" ==> Build(DefaultCollection(text, mention), segment, context) == Some(mention.build(segment, context))
    ensures segment.kind != "text" && segment.kind != "mention" ==> Build(DefaultCollection(text, mention), segment, context) == None
  {
    var bs := [text, mention];
    assert bs[0] == text && bs[1] == mention;
    assert (set i | 0 <= i < |bs| :: bs[i].segmentType) == {"text", "mention"};
    if segment.kind == "text" {
      DispatchToLastRegistered(bs, segment, context, 0);
    } else if segment.kind == "mention" {
      DispatchToLastRegistered(bs, segment, context, 1);
    }
  }

  /** A builder made by `defineOutgoing` and registered last handles every
      segment of its type, whatever was registered before it. */
  lemma DefinedBuilderHandlesItsType<S, X, E>(builders: seq<SegmentBuilder<S, X, E>>, segmentType: string,
                                               build: (Segment<S>, X) -> E, body: S, context: X)
    ensures Build(NewCollection(builders + [DefineOutgoing(segmentType, build)]), Segment(segmentType, body), context)
         == Some(build(Segment(segmentType, body), context))
  {
    var bs := builders + [DefineOutgoing(segmentType, build)];
    DispatchToLastRegistered(bs, Segment(segmentType, body), context, |bs| - 1);
  }
}

=== FILE: store.dfy ===
/** The persisted credential format (src/app/util/session/store.ts): every
    byte buffer is written as hex text, every other field is copied as is.

    A present but empty buffer is written as `""`, and `""` is falsy, so it
    reads back as absent. For an optional field that just loses the empty
    buffer; for a required one (the stub keys, the session keys d2Key, d2
    and tgt, the device guid and MAC address) the source's declared type or
    non-null assertion promises a buffer it does not have. The model makes
    that hole visible: deserialisation fails with `EmptyRequiredBuffer`. */
module SessionStore {
  import opened Wrappers
  import opened Hex
  import opened Entities

  datatype StoreError = EmptyRequiredBuffer(field: string)

  datatype DeviceInfoSerialized = DeviceInfoSerialized(
    guid: string,
    macAddress: string,
    deviceName: string,
    systemKernel: string,
    kernelVersion: string)

  datatype StubSerialized = StubSerialized(randomKey: string, tgtgtKey: string)

  datatype SessionSerialized = SessionSerialized(
    d2Key: string,
    d2: string,
    tgt: string,
    sessionDate: int,
    qrSign: Option<string>,
    qrString: Option<string>,
    qrUrl: Option<string>,
    exchangeKey: Option<string>,
    keySign: Option<string>,
    unusualSign: Option<string>,
    unusualCookies: Option<string>,
    captchaUrl: Option<string>,
    newDeviceVerifyUrl: Option<string>,
    captcha: Option<Captcha>,
    tempPassword: Option<string>,
    noPicSig: Option<string>,
    sequence: int)

  datatype KeystoreSerialized = KeystoreSerialized(
    uin: int,
    uid: Option<string>,
    passwordMd5: string,
    stub: StubSerialized,
    session: SessionSerialized,
    info: AccountInfo)

  // ---------------------------------------------------------------- buffers

  /** `serializeBuffer`: a buffer object is truthy even when empty, so every
      present buffer is hex-encoded and only an absent one stays absent. */
  function SerializeBuffer(data: Option<Bytes>): (r: Option<string>)
    ensures r.None? <==> data.None?
    ensures data.Some? ==> |r.value| == 2 * |data.value|
    ensures data.Some? ==> Hex.Decode(r.value) == data.value
  {
    match data
    case None => None
    case Some(b) =>
      DecodeEncode(b);
      Some(Encode(b))
  }

  /** `deserializeBuffer`: absent and the empty string both read as absent;
      any other text is hex-decoded. */
  function DeserializeBuffer(data: Option<string>): (r: Option<Bytes>)
    ensures r.None? <==> (data.None? || data.value == "")
    ensures r.Some? ==> r.value == Hex.Decode(data.value)
  {
    if data.None? || data.value == "" then None else Some(Hex.Decode(data.value))
  }

  /** A required buffer field: reading back absent is the failure the source's
      types rule out but its code does not. */
  function DeserializeRequired(data: string, field: string): (r: Result<Bytes, StoreError>)
    ensures r.Failure? <==> data == ""
    ensures r.Failure? ==> r.error == EmptyRequiredBuffer(field)
    ensures r.Success? ==> Some(r.value) == DeserializeBuffer(Some(data))
  {
    match DeserializeBuffer(Some(data))
    case None => Failure(EmptyRequiredBuffer(field))
    case Some(b) => Success(b)
  }

  /** A present, non-empty buffer survives the round trip. */
  lemma BufferRoundTrip(b: Bytes)
    requires b != []
    ensures DeserializeBuffer(SerializeBuffer(Some(b))) == Some(b)
  {
  }

  /** The empty buffer does not: it is written as `""` and read back absent. */
  lemma EmptyBufferLost()
    ensures SerializeBuffer(Some([])) == Some("")
    ensures DeserializeBuffer(SerializeBuffer(Some([]))) == None
  {
  }

  /** Canonical non-empty hex text survives reading and writing back. */
  lemma TextRoundTrip(s: string)
    requires s != "" && IsCanonical(s)
    ensures SerializeBuffer(DeserializeBuffer(Some(s))) == Some(s)
  {
    EncodeDecode(s);
  }

  /** An absent or non-empty buffer field round-trips. */
  predicate Persistable(b: Option<Bytes>) {
    b.None? || b.value != []
  }

  // ------------------------------------------------------------ device info

  function SerializeDeviceInfo(d: DeviceInfo): (r: DeviceInfoSerialized)
    ensures r.deviceName == d.deviceName
    ensures r.systemKernel == d.systemKernel
    ensures r.kernelVersion == d.kernelVersion
    ensures |r.guid| == 2 * |d.guid| && |r.macAddress| == 2 * |d.macAddress|
  {
    DeviceInfoSerialized(
      SerializeBuffer(Some(d.guid)).value,
      SerializeBuffer(Some(d.macAddress)).value,
      d.deviceName,
      d.systemKernel,
      d.kernelVersion)
  }

  function DeserializeDeviceInfo(s: DeviceInfoSerialized): (r: Result<DeviceInfo, StoreError>)
    ensures r.Failure? <==> s.guid == "" || s.macAddress == ""
    ensures r.Success? ==>
      && r.value.deviceName == s.deviceName
      && r.value.systemKernel == s.systemKernel
      && r.value.kernelVersion == s.kernelVersion
    ensures r.Success? ==>
      && Some(r.value.guid) == DeserializeBuffer(Some(s.guid))
      && Some(r.value.macAddress) == DeserializeBuffer(Some(s.macAddress))
  {
    var guid :- DeserializeRequired(s.guid, "guid");
    var mac :- DeserializeRequired(s.macAddress, "macAddress");
    Success(DeviceInfo(guid, mac, s.deviceName, s.systemKernel, s.kernelVersion))
  }

  /** The device record round-trips exactly when both buffers are non-empty. */
  lemma DeviceInfoRoundTrip(d: DeviceInfo)
    ensures d.guid != [] && d.macAddress != [] ==>
      DeserializeDeviceInfo(SerializeDeviceInfo(d)) == Success(d)
    ensures d.guid == [] ==>
      DeserializeDeviceInfo(SerializeDeviceInfo(d)) == Failure(EmptyRequiredBuffer("guid"))
    ensures d.guid != [] && d.macAddress == [] ==>
      DeserializeDeviceInfo(SerializeDeviceInfo(d)) == Failure(EmptyRequiredBuffer("macAddress"))
  {
    DecodeEncode(d.guid);
    DecodeEncode(d.macAddress);
  }

  // --------------------------------------------------------------- keystore

  function SerializeKeystore(k: Keystore): (r: KeystoreSerialized)
    ensures r.uin == k.uin && r.uid == k.uid && r.passwordMd5 == k.passwordMd5
    ensures r.session.sessionDate == k.session.sessionDate
    ensures r.session.qrString == k.session.qrString
    ensures r.session.qrUrl == k.session.qrUrl
    ensures r.session.unusualCookies == k.session.unusualCookies
    ensures r.session.captchaUrl == k.session.captchaUrl
    ensures r.session.newDeviceVerifyUrl == k.session.newDeviceVerifyUrl
    ensures r.session.captcha == k.session.captcha
    ensures r.session.sequence == k.session.sequence
    ensures r.info == k.info
    ensures r.session.d2Key == "" <==> k.session.d2Key == []
    ensures r.session.d2 == "" <==> k.session.d2 == []
    ensures r.session.tgt == "" <==> k.session.tgt == []
  {
    var st := k.stub;
    var se := k.session;
    KeystoreSerialized(
      k.uin,
      k.uid,
      k.passwordMd5,
      StubSerialized(
        SerializeBuffer(Some(st.randomKey)).value,
        SerializeBuffer(Some(st.tgtgtKey)).value),
      SessionSerialized(
        SerializeBuffer(Some(se.d2Key)).value,
        SerializeBuffer(Some(se.d2)).value,
        SerializeBuffer(Some(se.tgt)).value,
        se.sessionDate,
        SerializeBuffer(se.qrSign),
        se.qrString,
        se.qrUrl,
        SerializeBuffer(se.exchangeKey),
        SerializeBuffer(se.keySign),
        SerializeBuffer(se.unusualSign),
        se.unusualCookies,
        se.captchaUrl,
        se.newDeviceVerifyUrl,
        se.captcha,
        SerializeBuffer(se.tempPassword),
        SerializeBuffer(se.noPicSig),
        se.sequence),
      AccountInfo(k.info.age, k.info.gender, k.info.name))
  }

  function DeserializeKeystore(s: KeystoreSerialized): (r: Result<Keystore, StoreError>)
    ensures r.Failure? <==>
      (s.stub.randomKey == "" || s.stub.tgtgtKey == "" ||
       s.session.d2Key == "" || s.session.d2 == "" || s.session.tgt == "")
    ensures r.Success? ==>
      && r.value.uin == s.uin && r.value.uid == s.uid && r.value.passwordMd5 == s.passwordMd5
      && r.value.session.sessionDate == s.session.sessionDate
      && r.value.session.sequence == s.session.sequence
      && r.value.info == s.info
    ensures r.Success? ==>
      && r.value.session.qrString == s.session.qrString
      && r.value.session.qrUrl == s.session.qrUrl
      && r.value.session.unusualCookies == s.session.unusualCookies
      && r.value.session.captchaUrl == s.session.captchaUrl
      && r.value.session.newDeviceVerifyUrl == s.session.newDeviceVerifyUrl
      && r.value.session.captcha == s.session.captcha
    ensures r.Success? ==>
      && Some(r.value.stub.randomKey) == DeserializeBuffer(Some(s.stub.randomKey))
      && Some(r.value.stub.tgtgtKey) == DeserializeBuffer(Some(s.stub.tgtgtKey))
      && Some(r.value.session.d2Key) == DeserializeBuffer(Some(s.session.d2Key))
      && Some(r.value.session.d2) == DeserializeBuffer(Some(s.session.d2))
      && Some(r.value.session.tgt) == DeserializeBuffer(Some(s.session.tgt))
    ensures r.Success? ==>
      && r.value.session.qrSign == DeserializeBuffer(s.session.qrSign)
      && r.value.session.exchangeKey == DeserializeBuffer(s.session.exchangeKey)
      && r.value.session.keySign == DeserializeBuffer(s.session.keySign)
      && r.value.session.unusualSign == DeserializeBuffer(s.session.unusualSign)
      && r.value.session.tempPassword == DeserializeBuffer(s.session.tempPassword)
      && r.value.session.noPicSig == DeserializeBuffer(s.session.noPicSig)
  {
    var st := s.stub;
    var se := s.session;
    var randomKey :- DeserializeRequired(st.randomKey, "randomKey");
    var tgtgtKey :- DeserializeRequired(st.tgtgtKey, "tgtgtKey");
    var d2Key :- DeserializeRequired(se.d2Key, "d2Key");
    var d2 :- DeserializeRequired(se.d2, "d2");
    var tgt :- DeserializeRequired(se.tgt, "tgt");
    Success(Keystore(
      s.uin,
      s.uid,
      s.passwordMd5,
      Stub(randomKey, tgtgtKey),
      Session(
        d2Key,
        d2,
        tgt,
        se.sessionDate,
        DeserializeBuffer(se.qrSign),
        se.qrString,
        se.qrUrl,
        DeserializeBuffer(se.exchangeKey),
        DeserializeBuffer(se.keySign),
        DeserializeBuffer(se.unusualSign),
        se.unusualCookies,
        se.captchaUrl,
        se.newDeviceVerifyUrl,
        se.captcha,
        DeserializeBuffer(se.tempPassword),
        DeserializeBuffer(se.noPicSig),
        se.sequence),
      AccountInfo(s.info.age, s.info.gender, s.info.name)))
  }

  /** Every buffer of the keystore that is present is non-empty. */
  predicate NoEmptyBuffers(k: Keystore) {
    && k.stub.randomKey != [] && k.stub.tgtgtKey != []
    && k.session.d2Key != [] && k.session.d2 != [] && k.session.tgt != []
    && Persistable(k.session.qrSign)
    && Persistable(k.session.exchangeKey)
    && Persistable(k.session.keySign)
    && Persistable(k.session.unusualSign)
    && Persistable(k.session.tempPassword)
    && Persistable(k.session.noPicSig)
  }

  lemma OptionalBufferRoundTrip(b: Option<Bytes>)
    requires Persistable(b)
    ensures DeserializeBuffer(SerializeBuffer(b)) == b
  {
  }

  /** A keystore without empty buffers comes back unchanged. */
  lemma KeystoreRoundTrip(k: Keystore)
    requires NoEmptyBuffers(k)
    ensures DeserializeKeystore(SerializeKeystore(k)) == Success(k)
  {
    var se := k.session;
    DecodeEncode(k.stub.randomKey);
    DecodeEncode(k.stub.tgtgtKey);
    DecodeEncode(se.d2Key);
    DecodeEncode(se.d2);
    DecodeEncode(se.tgt);
    OptionalBufferRoundTrip(se.qrSign);
    OptionalBufferRoundTrip(se.exchangeKey);
    OptionalBufferRoundTrip(se.keySign);
    OptionalBufferRoundTrip(se.unusualSign);
    OptionalBufferRoundTrip(se.tempPassword);
    OptionalBufferRoundTrip(se.noPicSig);
  }

  /** An empty session key does not survive: the `!` in the source hides an
      absent d2Key, d2 or tgt. */
  lemma EmptySessionKeyLost(k: Keystore)
    requires k.stub.randomKey != [] && k.stub.tgtgtKey != []
    requires k.session.d2Key == [] || k.session.d2 == [] || k.session.tgt == []
    ensures DeserializeKeystore(SerializeKeystore(k)).Failure?
  {
  }

  /** An empty optional buffer comes back absent and nothing else changes. */
  lemma EmptyTempPasswordLost(k: Keystore)
    requires NoEmptyBuffers(k.(session := k.session.(tempPassword := None)))
    requires k.session.tempPassword == Some([])
    ensures DeserializeKeystore(SerializeKeystore(k)) ==
      Success(k.(session := k.session.(tempPassword := None)))
  {
    KeystoreRoundTrip(k.(session := k.session.(tempPassword := None)));
  }
}

=== FILE: wrappers.dfy ===
/** Failure-compatible wrappers used throughout the model: `Option` for the
    JavaScript `undefined`, `Result` for an operation that can fail. */
module Wrappers {

  datatype Option<+T> = None | Some(value: T) {

    predicate IsFailure() {
      None?
    }

    function PropagateFailure<U>(): Option<U>
      requires None?
    {
      None
    }

    function Extract(): T
      requires Some?
    {
      value
    }

    /** The value, or `default` when absent. */
    function GetOr(default: T): T {
      match this
      case Some(v) => v
      case None => default
    }
  }

  datatype Result<+R, +E> = Success(value: R) | Failure(error: E) {

    predicate IsFailure() {
      Failure?
    }

    function PropagateFailure<U>(): Result<U, E>
      requires Failure?
    {
      Failure(error)
    }

    function Extract(): R
      requires Success?
    {
      value
    }
  }
}
